=== FILE: README.md ===
# FindIt lost-and-found: a Dafny model of the chat store and its neighbours

This project models the part of the FindIt lost-and-found application that has state worth reasoning about:

- **The chat store.** This is the item-scoped conversation between two users in the `send_message` view.
  - Message rows live in an immutable `seq<Message>` in insertion order.
  - A viewer's conversation with a counterpart about an item is a filtered, timestamp-ordered view of the store.
  - *Clear* raises the acting user's own deletion flags and leaves every other user's view as it was, up to those flags. With the view's pair filter it misses the counterpart's notes to themself, which stay visible, and it catches the acting user's own notes to themself, which then vanish from their other chats about the item. The intended clear empties exactly the cleared conversation.
  - *Send* appends one fresh row.
- **The small rules in the same views module:**
  - the `item_list` search filters;
  - the owner-or-superuser `is_returned` toggle;
  - the unread-inbox badge.
- **The schema's own promises:**
  - field defaults and choice domains;
  - the return-confirmation conjunction;
  - review rating bounds, and one review per reviewer/reviewed pair;
  - one profile per user, created by the post-save hook.

Modules follow the program's structure:

| module | file | models |
|---|---|---|
| `Common` | common.dfy | `Option`, `Result` and the errors the store raises |
| `Seqs` | seqs.dfy | query-set filtering, per-row updates and stable ordering, with commutation lemmas |
| `Text` | text.dfy | the `icontains` lookup |
| `Models` | models.dfy | records, choices and defaults of `FindIt/models.py`, reviews, return confirmations |
| `Accounts` | accounts.dfy | profiles, the post-save hook and the registration form |
| `Chat` | chat.dfy | `send_message`: conversation, clear, send, the view |
| `Inbox` | inbox.dfy | the `unread_inbox_count` context processor |
| `Listing` | listing.dfy | `item_list` and `mark_item_returned` |

How the model represents things:

- **Time.** Timestamps are an abstract `nat` clock. Lemmas that need a monotone clock say so with `ClockAfter(store, now)`.
- **Message ids.** Ids are auto-increment values (`|store| + 1`): the model removes no row, and cascading deletes are left out (see "## Left out").
- **Ordering.** Where the database leaves the order of equal keys open, the model uses a stable sort. `ClockAfter` admits a stored row stamped at the same time as a new one, so "the new row comes last" and "keeps the store's own order" rest on that tie-break.
- **Autocommit.** Each statement commits on its own, which is Django's default. So rows written before a failing insert stay written.

## Model

| member | source | states |
|---|---|---|
| `Chat.ConversationAsWritten` | FindIt/views.py:167-175 | the view's conversation holds exactly the rows about the item whose sender and recipient are both in {viewer, other}, minus the viewer's sent rows flagged deleted-by-sender, minus the viewer's received rows flagged deleted-by-recipient. Each row occurs as often as in the store; ascending timestamp order |
| `Chat.Conversation` | FindIt/views.py:166-175 | the intended conversation: exactly the rows the two users exchanged about the item, minus those the viewer deleted from their own side. Each row occurs as often as in the store; ascending timestamp order |
| `Chat.ConversationSymmetric` | FindIt/views.py:167-170 | with the view's filter and with the intended one, a row neither side has deleted is in one participant's conversation iff it is in the other's |
| `Chat.ClearRowAsWritten` | FindIt/views.py:180-189 | the two UPDATE statements applied to one row: the sender flag is raised iff the row is in the pair and the viewer sent it; the recipient flag is raised iff the row is in the pair and the viewer received it; every other field is kept |
| `Chat.ClearAsWritten` | FindIt/views.py:180-189 | the clear action as written: the same number of rows; each row keeps every field except the two flags; each flag is raised exactly on the pair rows where the viewer is on that side |
| `Chat.ClearAsWrittenLeavesCounterpartNotes` | FindIt/views.py:167-189 | after the as-written clear, the viewer still sees exactly the notes the counterpart addressed to themself about the item: nothing else is shown, and every such note the store holds is still shown |
| `Chat.CounterpartNoteSurvivesClear` | FindIt/views.py:167-189 | on a one-row store holding user 2's note to themself, the as-written view shows the note to user 1, and it is still shown after user 1 clears. The intended conversation is empty |
| `Chat.ViewerNoteHiddenFromOtherChats` | FindIt/views.py:167-189 | on a one-row store holding user 1's note to themself about item 7, the as-written view shows it in user 1's chat with user 3. After user 1 clears the chat with user 2 it is gone from the chat with user 3 too; the intended clear leaves the store unchanged |
| `Chat.CounterpartNoteEntersChat` | FindIt/views.py:167-201 | after user 2 sends a message to themself about item 7, the as-written view shows it in user 1's chat with user 2; the intended conversation stays empty |
| `Chat.ClearRow` | FindIt/views.py:180-189 | the intended clear of one row, which the two UPDATE statements would compute with the intended pair filter: a row not exchanged between the two users about the item is untouched; inside the conversation, only the viewer's own flag is raised. It differs from the view on the viewer's own note to themself, which the view flags on both sides |
| `Chat.Clear` | FindIt/views.py:177-189 | the intended clear action: the same rows; rows outside the intended conversation are unchanged; the viewer's flag is raised exactly on the conversation rows where the viewer is on that side; nothing else changes |
| `Chat.AsWrittenAgreesWithoutSelfAddressed` | FindIt/views.py:167-189 | on a store with no self-addressed row, the as-written and the intended conversation and clear coincide |
| `Chat.ClearEmptiesConversation` | FindIt/views.py:171-189 | after clearing, the viewer's conversation for that item and counterpart is empty |
| `Chat.ClearIdempotent` | FindIt/views.py:180-189 | clearing twice gives the same store as clearing once, as written and as intended |
| `Chat.ClearInvisibleToOthers` | FindIt/views.py:171-189 | as written and as intended: for every user other than the one clearing, and every conversation, the same records in the same order are shown before and after the clear, up to the deletion flags |
| `Chat.ClearKeepsCounterpartView` | FindIt/views.py:171-189 | as written and as intended: when viewer and counterpart differ, the counterpart's conversation keeps the same records in the same order after the viewer clears, up to the deletion flags |
| `Chat.ClearAsWrittenForViewerOnly` | FindIt/views.py:177-189 | the view's clear is for the clearing user only: for every other user and every conversation, the same records in the same order are shown before and after, up to the deletion flags |
| `Chat.ClearForViewerOnly` | FindIt/views.py:177-189 | the same for the intended clear |
| `Chat.ClearKeepsOtherConversations` | FindIt/views.py:177-189 | with the intended filter, clearing one conversation leaves the viewer's conversations with other counterparts, or about other items, exactly as they were. As written, this holds when the viewer has no note to themself about the cleared item |
| `Chat.ClearAsWrittenKeepsViewerOtherChats` | FindIt/views.py:177-189 | as written, when the viewer has no note to themself about the item, clearing one chat leaves every other chat of the viewer, with another counterpart or about another item, exactly as it was |
| `Chat.ClearKeepsViewerOtherChats` | FindIt/views.py:177-189 | with the intended filter, clearing one chat leaves every other chat of the viewer exactly as it was |
| `Chat.Send` | FindIt/views.py:196-201 | sending keeps the store as a prefix and appends exactly one row: from the viewer, to the given recipient, with the given item and content, no image, unread and undeleted. The row belongs to both participants' conversations and is hidden from neither |
| `Chat.OperationsKeepStoreValid` | FindIt/views.py:180-201 | on a monotone clock, send, the as-written clear and the intended clear keep the store's invariant: ids are 1, 2, 3, ... and timestamps never decrease |
| `Chat.ConversationInStoreOrder` | FindIt/views.py:175 | on a valid store, ordering by timestamp keeps the store's own order of the filtered rows, with the view's filter and with the intended one. Rows with equal timestamps keep store order because of the model's stable tie-break; the database leaves their order open |
| `Chat.SendAppendsToConversation` | FindIt/views.py:196-201 | on a monotone clock, a new message is added at the end of both participants' conversations, after everything they already saw, as written and as intended. When an earlier row has the same timestamp, "at the end" rests on the model's stable tie-break |
| `Chat.SendLeavesOtherConversations` | FindIt/views.py:196-201 | with the intended filter, a new message changes no conversation it was not exchanged in |
| `Chat.SendAsWrittenLeavesOtherConversations` | FindIt/views.py:167-201 | with the view's filter, a new message leaves a conversation unchanged iff that conversation's pair filter rejects it |
| `Chat.ClearedConversationReappears` | FindIt/views.py:180-201 | after a clear, the next message from either participant ends the clearing user's view. As written, the rows before it are notes the counterpart addressed to themself; as intended, it is the only message shown, with its content, and unread |
| `Chat.SendMessageView` | FindIt/views.py:161-211 | a missing item or recipient gives Not Found and leaves the store alone. A clear request redirects and changes deletion flags only: the store keeps its length and every row up to the flags; the viewer then sees exactly the counterpart's notes to themself about the item; every other user's every conversation keeps the same records in the same order; when the viewer has no note to themself about the item, the viewer's conversations with other counterparts or about other items are unchanged. A valid submission redirects after appending exactly the new unread row from the viewer. A plain view or a rejected form renders the current conversation without changing the store |
| `Chat.SendMessageViewCorrected` | FindIt/views.py:161-211 | the same view with the intended filter: the same Not Found, submission and rendering outcomes. A clear changes deletion flags only, empties the viewer's conversation, leaves the viewer's conversations with other counterparts or about other items unchanged, and keeps every other user's every conversation the same records in the same order |
| `Chat.ClearThenShowListsCounterpartNotes` | FindIt/views.py:178-191 | as written, a clear request redirects, and the page it redirects to lists exactly the counterpart's notes to themself about the item |
| `Chat.ClearThenShowIsEmpty` | FindIt/views.py:178-191 | with the intended filter, a clear request redirects, and the page it redirects to shows an empty thread |
| `Chat.SubmitThenShowEndsWithMessage` | FindIt/views.py:193-203 | as written and as intended, a valid submission redirects, and the page it redirects to shows the earlier conversation followed by the new message. Against an earlier row with the same timestamp, this order rests on the model's stable tie-break |
| `Inbox.UnreadCount` | FindIt/views.py:20 | the count equals the number of store positions holding a message received by the user and not read |
| `Inbox.UnreadInboxCount` | FindIt/views.py:18-21 | an anonymous request gets 0. A signed-in user gets the number of their received unread messages, which is 0 exactly when they have none |
| `Inbox.SendRaisesRecipientCount` | FindIt/views.py:20 | a sent message raises the recipient's count by one and no other user's |
| `Inbox.ClearKeepsUnreadCount` | FindIt/views.py:18-21 | clearing, as written or as intended, changes nobody's count: deletion flags are ignored |
| `Inbox.ClearedUnreadStillCounted` | FindIt/views.py:18-21 | a user who clears a conversation holding an unread message they received keeps a non-zero badge. With the intended clear the conversation is empty; as written, only the counterpart's notes to themself remain shown |
| `Listing.ItemList` | FindIt/views.py:106-116 | an item is listed iff every non-empty filter holds: the text occurs case-insensitively in the title, description or location; the category equals; the stored status equals. Each listed item occurs as often as in the store; newest report first |
| `Listing.EmptyQueryListsAll` | FindIt/views.py:106-116 | with no filter, every item is listed |
| `Listing.FiltersCompose` | FindIt/views.py:111-116 | an item is listed for a query iff it is listed for each of the query's filters on its own |
| `Listing.TextSearchIgnoresCase` | FindIt/views.py:112 | lower-casing the search text does not change the list |
| `Listing.UnknownStatusListsNothing` | FindIt/views.py:115-116 | a status filter outside the stored choices, such as "Lost", lists nothing |
| `Listing.MarkItemReturned` | FindIt/views.py:5-16 | a missing item gives Not Found. The reporter or a superuser negates `is_returned` of that item only, and the notice says which way it went. Any other user changes nothing and gets a permission notice |
| `Listing.ToggleTwiceRestores` | FindIt/views.py:7-9 | two toggles by the same actor restore the original items |
| `Text.ContainsIgnoreCase` | FindIt/views.py:112 | `icontains` holds iff the lower-cased query occurs at some position of the lower-cased text |
| `Text.ContainsIgnoresCase` | FindIt/views.py:112 | lower-casing either side does not change `icontains` |
| `Models.FindItem` | FindIt/views.py:6 | the lookup returns the first position holding the id, or nothing when no item has it |
| `Models.NewItem` | FindIt/models.py:75-84 | a new item is not returned, has no owner, and is stamped with the report time |
| `Models.StatusCode` | FindIt/models.py:71-74 | a stored status is "lost" or "found" and fits the 5-character column |
| `Models.ParseStatus` | FindIt/models.py:71-80 | only "lost" and "found" are accepted, and each reads back to the value it stores |
| `Models.StatusRoundTrip` | FindIt/models.py:71-80 | every status survives being stored and read back |
| `Models.NewMessage` | FindIt/models.py:92-100 | a new message is unread and not deleted by either side |
| `Models.NewConfirmation` | FindIt/models.py:107-114 | a new return confirmation has neither side confirmed, and no evidence or confirmation time |
| `Models.IsFullyConfirmed` | FindIt/models.py:116-117 | a return is fully confirmed iff both the finder and the owner confirmed it |
| `Models.FullConfirmationNeedsBoth` | FindIt/models.py:116-117 | a fresh record, or one confirmed by one side only, is not fully confirmed; a record both sides confirmed is |
| `Models.AddReview` | FindIt/models.py:44-52 | a rating outside 1..5 is refused as an invalid choice; a second review for the same pair is refused as a unique violation; otherwise exactly the review is appended. The table's constraints are kept |
| `Models.SecondReviewRejected` | FindIt/models.py:51-52 | once a review for a pair is stored, any further review for that pair is refused |
| `Models.VisibilityCode` | FindIt/models.py:26-32 | stored visibility values lie in {everyone, registered, private} and fit the 20-character column |
| `Models.ParseVisibility` | FindIt/models.py:26-32 | only the three choices are accepted, and each reads back to the value it stores |
| `Models.VisibilityRoundTrip` | FindIt/models.py:26-32 | every visibility survives being stored and read back |
| `Accounts.NewProfile` | FindIt/models.py:17-37 | a new profile has profile visibility "everyone", contact visibility "registered", and the other field defaults |
| `Accounts.InsertProfile` | FindIt/models.py:21 | the one-to-one column refuses a profile for a user who already has one; otherwise the user ends with exactly one profile |
| `Accounts.SaveNewUser` | FindIt/models.py:54-62 | on a valid store, saving a user appends it with the next id, and the hook gives it exactly one default profile; the store stays valid |
| `Accounts.RegisterAsWritten` | FindIt/forms.py:13-19 | the registration form as written, on its default commit path, always saves the new user with the next id |
| `Accounts.RegistrationAlwaysClashes` | FindIt/forms.py:16-18 | on every valid store, the form's profile insert fails with a unique violation. The user and the hook's default profile stay committed, and the entered contact number is lost |
| `Accounts.Register` | FindIt/forms.py:13-19 | corrected registration commits the new user with the next id |
| `Accounts.RegisterProvisionsOneProfile` | FindIt/forms.py:16-18 | corrected registration succeeds on every valid store: the user has exactly one profile, carrying the entered contact number and the default settings, and the store stays valid |

## Findings

| source | as written | input that shows it | evidently intended | confidence | as-written member | corrected member |
|---|---|---|---|---|---|---|
| FindIt/forms.py:16-18 | saves the user, which fires the post-save hook that creates the profile, then inserts a second profile for the same user | any registration on a valid store | record the contact number on the profile the hook created | high; not executed | `Accounts.RegisterAsWritten`, `Accounts.RegistrationAlwaysClashes` | `Accounts.Register`, `Accounts.RegisterProvisionsOneProfile` |
| FindIt/views.py:167-175 | the pair filter asks only that sender and recipient each be one of the two users. So a note the counterpart addressed to themself is in the viewer's conversation, and the viewer's clear cannot hide it. A note the viewer addressed to themself is in every chat the viewer has about the item, and clearing any one of them hides it from all | user 2 sends a message to user 2 about item 7, and user 1 opens the chat with user 2 about item 7. Or user 1 sends a message to themself about item 7 and then clears the chat with user 2 | only the rows sent from one of the two users to the other | medium (needs a self-addressed message, which the view does not forbid); not executed | `Chat.ConversationAsWritten`, `Chat.SendMessageView`, `Chat.CounterpartNoteSurvivesClear`, `Chat.CounterpartNoteEntersChat`, `Chat.ViewerNoteHiddenFromOtherChats` | `Chat.Conversation`, `Chat.ClearRow`, `Chat.Clear`, `Chat.SendMessageViewCorrected`, `Chat.ClearEmptiesConversation`, `Chat.ClearKeepsOtherConversations` |

## Left out

- The WebSocket consumer (FindIt/consumers.py) is left out: room membership, broadcast and async persistence are pub/sub plumbing. Its `save_message` is the append that `Chat.Send` models, plus an optional image.
- The authentication and session views, the profile form and views, `contact_item_owner` (email delivery), `admin_dashboard` (aggregate counts), `inbox`, `home`, `report_item`, `item_detail`, `categories_context`, routing and admin registrations are left out: they are framework glue, rendering or I/O.
- `admin_dashboard` filters on "Found"/"Lost", but the stored values are "found"/"lost". `Listing.UnknownStatusListsNothing` shows what such a filter returns in the item list.
- The viewer of `send_message` is taken to be signed in. The view carries no login check, and the behaviour of an anonymous request inside the ORM filter is left out.
- `MessageForm` is not part of this model. Its verdict (the cleaned text, or a rejection) is a parameter of the view.
- The category parameter arrives as the id it names. A non-numeric value, which makes the database lookup fail, is left out.
- Case folding in `icontains` covers ASCII letters only. Database collations differ beyond that.
- Datetimes are an abstract `nat` clock, and the timestamp formatting for broadcast frames is left out.
- Image and file uploads are opaque optional values.
- The database is not modelled: transactions, cascading deletes, `MultipleObjectsReturned` and id reuse are left out. Constraints are explicit predicates on the stored sequences.
- Accounts.RegisterAsWritten: only the form's default `commit=True` path is modelled, the one the registration view takes (FindIt/views.py:63); with `commit=False` the form saves nothing and returns the unsaved user.
- Marking messages read is left out: no modelled view flips `is_read`.
- Review ratings are validated the way form validation does it. An insert that bypasses validation is left out.
- `Chat.ClearInvisibleToOthers` compares conversations up to the deletion flags, because a clear does rewrite those flags on rows the other user still sees.

=== FILE: accounts.dfy ===
/** User accounts and their one-to-one profiles: the post-save hook that
    provisions a profile for every new user, and the registration form
    that saves a user and then inserts a profile of its own. The store
    commits each statement on its own (autocommit), so rows written before
    a failing insert stay written. */
module Accounts {
  import opened Common
  import opened Models

  datatype UserProfile = UserProfile(
    user: UserId,
    address: Option<string>,
    bio: Option<string>,
    socialLinks: Option<string>,
    contactNumber: string,
    profilePicture: Option<Upload>,
    notifyEmail: bool,
    notifySms: bool,
    profileVisibility: Visibility,
    contactVisibility: Visibility,
    showEmail: bool,
    showPhone: bool,
    showItems: bool,
    showActivity: bool,
    allowMessages: bool)

  /** A profile created with the field defaults and the given contact number. */
  function NewProfile(user: UserId, contactNumber: string): (r: UserProfile)
    ensures r.user == user && r.contactNumber == contactNumber
    ensures r.profileVisibility == Everyone && r.contactVisibility == Registered
    ensures VisibilityCode(r.profileVisibility) == "everyone"
    ensures VisibilityCode(r.contactVisibility) == "registered"
    ensures r.notifyEmail && !r.notifySms
    ensures r.showEmail && r.showPhone && r.showItems && r.showActivity && r.allowMessages
    ensures r.address == None && r.bio == None && r.socialLinks == None && r.profilePicture == None
  {
    UserProfile(user, None, None, None, contactNumber, None, true, false,
                Everyone, Registered, true, true, true, true, true)
  }

  datatype Accounts = Accounts(users: seq<User>, profiles: seq<UserProfile>)

  /** The state left by a sequence of statements, with the error that
      stopped it, if any. */
  datatype Saved = Saved(accounts: Accounts, error: Option<DbError>)

  /** Number of profiles attached to `user`. */
  function ProfileCount(profiles: seq<UserProfile>, user: UserId): (r: nat)
    ensures r <= |profiles|
    ensures r == 0 <==> forall k :: 0 <= k < |profiles| ==> profiles[k].user != user
  {
    if |profiles| == 0 then 0
    else
      var init := profiles[..|profiles| - 1];
      assert forall k :: 0 <= k < |init| ==> init[k] == profiles[k];
      ProfileCount(init, user) + if profiles[|profiles| - 1].user == user then 1 else 0
  }

  /** The schema's constraints: user ids are assigned 1, 2, 3, ...; every
      profile belongs to an existing user; no user has two profiles. */
  predicate AccountsValid(a: Accounts) {
    && (forall k :: 0 <= k < |a.users| ==> a.users[k].id == k + 1)
    && (forall k :: 0 <= k < |a.profiles| ==> 1 <= a.profiles[k].user <= |a.users|)
    && (forall i, j :: 0 <= i < j < |a.profiles| ==> a.profiles[i].user != a.profiles[j].user)
  }

  /** The id the next inserted user receives. */
  function NextUserId(a: Accounts): UserId {
    |a.users| + 1
  }

  /** Inserts a profile; the one-to-one column refuses a second profile for a user. */
  function InsertProfile(profiles: seq<UserProfile>, p: UserProfile): (r: Result<seq<UserProfile>, DbError>)
    ensures r.Failure? <==> ProfileCount(profiles, p.user) > 0
    ensures r.Failure? ==> r.error == UniqueViolation
    ensures r.Success? ==> ProfileCount(r.value, p.user) == 1
    ensures r.Success? ==> |r.value| == |profiles| + 1 && r.value[..|profiles|] == profiles
                           && r.value[|profiles|] == p
  {
    if ProfileCount(profiles, p.user) > 0 then Failure(UniqueViolation)
    else
      var ps := profiles + [p];
      assert ps[..|profiles|] == profiles;
      Success(ps)
  }

  /** Saves a new user. The post-save hook then creates the user's profile
      with default settings; the second hook only re-saves an existing
      profile and changes nothing. */
  function SaveNewUser(a: Accounts, username: string, isSuperuser: bool): (r: Saved)
    ensures |r.accounts.users| == |a.users| + 1 && r.accounts.users[..|a.users|] == a.users
    ensures r.accounts.users[|a.users|] == User(NextUserId(a), username, isSuperuser)
    ensures AccountsValid(a) ==> r.error == None && AccountsValid(r.accounts)
    ensures AccountsValid(a) ==> ProfileCount(r.accounts.profiles, NextUserId(a)) == 1
    ensures AccountsValid(a) ==> r.accounts.profiles == a.profiles + [NewProfile(NextUserId(a), "")]
  {
    var id := NextUserId(a);
    var users := a.users + [User(id, username, isSuperuser)];
    assert users[..|a.users|] == a.users;
    assert AccountsValid(a) ==> ProfileCount(a.profiles, id) == 0;
    match InsertProfile(a.profiles, NewProfile(id, ""))
    case Success(ps) => Saved(Accounts(users, ps), None)
    case Failure(e) => Saved(Accounts(users, a.profiles), Some(e))
  }

  /** The registration form as written, on its default commit path: it
      saves the user, which fires the hook, and then inserts a second
      profile carrying the contact number. */
  function RegisterAsWritten(a: Accounts, username: string, contactNumber: string): (r: Saved)
    ensures |r.accounts.users| == |a.users| + 1
    ensures r.accounts.users[|a.users|] == User(NextUserId(a), username, false)
  {
    var saved := SaveNewUser(a, username, false);
    if saved.error.Some? then saved
    else
      match InsertProfile(saved.accounts.profiles, NewProfile(NextUserId(a), contactNumber))
      case Success(ps) => Saved(saved.accounts.(profiles := ps), None)
      case Failure(e) => Saved(saved.accounts, Some(e))
  }

  /** On every valid store, registration as written fails on the profile
      insert: the user and the hook's profile stay committed, and the
      profile does not carry the contact number the user entered. */
  lemma RegistrationAlwaysClashes(a: Accounts, username: string, contactNumber: string)
    requires AccountsValid(a)
    ensures RegisterAsWritten(a, username, contactNumber).error == Some(UniqueViolation)
    ensures var after := RegisterAsWritten(a, username, contactNumber).accounts;
            && AccountsValid(after)
            && ProfileCount(after.profiles, NextUserId(a)) == 1
            && after.profiles[|a.profiles|] == NewProfile(NextUserId(a), "")
  {
    var saved := SaveNewUser(a, username, false);
    assert ProfileCount(saved.accounts.profiles, NextUserId(a)) == 1;
  }

  /** Replaces the contact number of the profile of `user`. */
  function SetContactNumber(profiles: seq<UserProfile>, user: UserId, contactNumber: string): (r: seq<UserProfile>)
    ensures |r| == |profiles|
    ensures forall k :: 0 <= k < |profiles| && profiles[k].user != user ==> r[k] == profiles[k]
    ensures forall k :: 0 <= k < |profiles| && profiles[k].user == user ==>
              r[k] == profiles[k].(contactNumber := contactNumber)
  {
    seq(|profiles|, k requires 0 <= k < |profiles| =>
      if profiles[k].user == user then profiles[k].(contactNumber := contactNumber) else profiles[k])
  }

  /** Updating one field of some profiles keeps the profiles' owners, so
      the per-user counts are unchanged. */
  lemma {:induction false} SetContactNumberKeepsCounts(profiles: seq<UserProfile>, user: UserId,
                                                       contactNumber: string, u: UserId)
    ensures ProfileCount(SetContactNumber(profiles, user, contactNumber), u) == ProfileCount(profiles, u)
  {
    if |profiles| > 0 {
      var init := profiles[..|profiles| - 1];
      assert SetContactNumber(profiles, user, contactNumber)[..|profiles| - 1]
          == SetContactNumber(init, user, contactNumber);
      SetContactNumberKeepsCounts(init, user, contactNumber, u);
    }
  }

  /** Registration as intended: save the user (the hook creates the
      profile) and then record the contact number on that profile. */
  function Register(a: Accounts, username: string, contactNumber: string): (r: Saved)
    ensures |r.accounts.users| == |a.users| + 1
    ensures r.accounts.users[|a.users|] == User(NextUserId(a), username, false)
  {
    var saved := SaveNewUser(a, username, false);
    if saved.error.Some? then saved
    else
      var ps := SetContactNumber(saved.accounts.profiles, NextUserId(a), contactNumber);
      Saved(saved.accounts.(profiles := ps), None)
  }

  /** On every valid store, registration succeeds and leaves the new user
      with exactly one profile, holding the entered contact number and the
      default settings, while keeping the store's constraints. */
  lemma RegisterProvisionsOneProfile(a: Accounts, username: string, contactNumber: string)
    requires AccountsValid(a)
    ensures Register(a, username, contactNumber).error == None
    ensures var after := Register(a, username, contactNumber).accounts;
            && AccountsValid(after)
            && ProfileCount(after.profiles, NextUserId(a)) == 1
            && after.profiles[..|a.profiles|] == a.profiles
            && after.profiles[|a.profiles|] == NewProfile(NextUserId(a), contactNumber)
  {
    var id := NextUserId(a);
    var saved := SaveNewUser(a, username, false);
    var ps := saved.accounts.profiles;
    SetContactNumberKeepsCounts(ps, id, contactNumber, id);
    var ps' := SetContactNumber(ps, id, contactNumber);
    assert ps[|a.profiles|] == NewProfile(id, "");
    forall k | 0 <= k < |a.profiles| ensures ps'[k] == a.profiles[k] {
      assert ps[k] == a.profiles[k];
    }
  }
}

=== FILE: chat.dfy ===
/** The item-scoped chat between two users (the `send_message` view): the
    conversation a viewer sees, clearing it for the viewer only, and
    sending a new message. The store is an immutable sequence of message
    rows in insertion order; each participant hides rows through their own
    deletion flag, and nothing is ever removed. */
module Chat {
  import opened Common
  import opened Seqs
  import opened Models

  // ---------------------------------------------------------------------
  // Which rows belong to a conversation

  /** The pair filter as the view writes it: the row concerns `item`, and
      its sender and its recipient are each one of `a` and `b`. A note a
      user addressed to themself passes it for every counterpart. */
  predicate InPair(m: Message, a: UserId, b: UserId, item: ItemId) {
    m.item == item && (m.sender == a || m.sender == b) && (m.recipient == a || m.recipient == b)
  }

  /** The intended pair filter: the row concerns `item` and was sent from
      one of `viewer`, `other` to the other one. */
  predicate Exchanged(m: Message, viewer: UserId, other: UserId, item: ItemId) {
    m.item == item
    && ((m.sender == viewer && m.recipient == other) || (m.sender == other && m.recipient == viewer))
  }

  /** `viewer` deleted the row from their own side. */
  predicate HiddenFrom(m: Message, viewer: UserId) {
    (m.sender == viewer && m.deletedBySender) || (m.recipient == viewer && m.deletedByRecipient)
  }

  /** Ordering key of a conversation. */
  function Stamp(m: Message): int {
    m.timestamp
  }

  /** The row with both deletion flags cleared: what stays the same when
      someone deletes the row from their side. */
  function Unflagged(m: Message): Message {
    m.(deletedBySender := false, deletedByRecipient := false)
  }

  /** A message row whose sender and recipient coincide. */
  predicate SelfAddressed(m: Message) {
    m.sender == m.recipient
  }

  // ---------------------------------------------------------------------
  // Conversation, as written

  function ShownAsWrittenTo(viewer: UserId, other: UserId, item: ItemId): Message -> bool {
    m => InPair(m, viewer, other, item) && !HiddenFrom(m, viewer)
  }

  /** The conversation query of the view: pair filter, minus the rows the
      viewer sent and deleted, minus the rows the viewer received and
      deleted, ordered by timestamp. */
  function ConversationAsWritten(s: seq<Message>, viewer: UserId, other: UserId, item: ItemId): (r: seq<Message>)
    ensures forall m :: m in r <==>
              && m in s && m.item == item
              && m.sender in {viewer, other} && m.recipient in {viewer, other}
              && !(m.sender == viewer && m.deletedBySender)
              && !(m.recipient == viewer && m.deletedByRecipient)
    ensures forall m :: multiset(r)[m] ==
              if InPair(m, viewer, other, item) && !HiddenFrom(m, viewer) then multiset(s)[m] else 0
    ensures forall i, j :: 0 <= i < j < |r| ==> r[i].timestamp <= r[j].timestamp
  {
    Sort(Filter(s, ShownAsWrittenTo(viewer, other, item)), Stamp)
  }

  // ---------------------------------------------------------------------
  // Conversation, as intended

  function ShownTo(viewer: UserId, other: UserId, item: ItemId): Message -> bool {
    m => Exchanged(m, viewer, other, item) && !HiddenFrom(m, viewer)
  }

  /** The messages `viewer` and `other` exchanged about `item` that the
      viewer has not deleted, oldest first. */
  function Conversation(s: seq<Message>, viewer: UserId, other: UserId, item: ItemId): (r: seq<Message>)
    ensures forall m :: m in r <==> m in s && Exchanged(m, viewer, other, item) && !HiddenFrom(m, viewer)
    ensures forall m :: multiset(r)[m] ==
              if Exchanged(m, viewer, other, item) && !HiddenFrom(m, viewer) then multiset(s)[m] else 0
    ensures forall i, j :: 0 <= i < j < |r| ==> r[i].timestamp <= r[j].timestamp
  {
    Sort(Filter(s, ShownTo(viewer, other, item)), Stamp)
  }

  /** Both participants look at the same rows: a row neither side has
      deleted is in one participant's conversation exactly when it is in
      the other's, with the view's filter and with the intended one. */
  lemma ConversationSymmetric(s: seq<Message>, a: UserId, b: UserId, item: ItemId)
    ensures forall m :: m in s && !m.deletedBySender && !m.deletedByRecipient ==>
              (m in ConversationAsWritten(s, a, b, item) <==> m in ConversationAsWritten(s, b, a, item))
    ensures forall m :: m in s && !m.deletedBySender && !m.deletedByRecipient ==>
              (m in Conversation(s, a, b, item) <==> m in Conversation(s, b, a, item))
  {
  }

  // ---------------------------------------------------------------------
  // Clear, as written

  /** Both UPDATE statements of the view's clear action applied to one row:
      first the viewer's sent rows in the pair become deleted by sender,
      then the viewer's received rows in the pair become deleted by recipient. */
  function ClearRowAsWritten(m: Message, viewer: UserId, other: UserId, item: ItemId): (r: Message)
    ensures Unflagged(r) == Unflagged(m)
    ensures r.deletedBySender == (m.deletedBySender || (InPair(m, viewer, other, item) && m.sender == viewer))
    ensures r.deletedByRecipient == (m.deletedByRecipient || (InPair(m, viewer, other, item) && m.recipient == viewer))
  {
    var m' := if InPair(m, viewer, other, item) && m.sender == viewer then m.(deletedBySender := true) else m;
    if InPair(m', viewer, other, item) && m'.recipient == viewer then m'.(deletedByRecipient := true) else m'
  }

  function ClearingAsWritten(viewer: UserId, other: UserId, item: ItemId): Message -> Message {
    m => ClearRowAsWritten(m, viewer, other, item)
  }

  /** The clear action of the view, both UPDATE statements in turn. */
  function ClearAsWritten(s: seq<Message>, viewer: UserId, other: UserId, item: ItemId): (r: seq<Message>)
    ensures |r| == |s|
    ensures forall k :: 0 <= k < |s| ==> Unflagged(r[k]) == Unflagged(s[k])
    ensures forall k :: 0 <= k < |s| ==>
              r[k].deletedBySender == (s[k].deletedBySender || (InPair(s[k], viewer, other, item) && s[k].sender == viewer))
    ensures forall k :: 0 <= k < |s| ==>
              r[k].deletedByRecipient == (s[k].deletedByRecipient || (InPair(s[k], viewer, other, item) && s[k].recipient == viewer))
  {
    Map(s, ClearingAsWritten(viewer, other, item))
  }

  /** As written, clearing leaves in the viewer's conversation exactly the
      rows the counterpart addressed to themself about the item. */
  lemma ClearAsWrittenLeavesCounterpartNotes(s: seq<Message>, viewer: UserId, other: UserId, item: ItemId)
    ensures forall m :: m in ConversationAsWritten(ClearAsWritten(s, viewer, other, item), viewer, other, item) ==>
              m.sender == other && m.recipient == other && other != viewer
    ensures forall m :: m in s && m.item == item && m.sender == other && m.recipient == other && other != viewer ==>
              m in ConversationAsWritten(ClearAsWritten(s, viewer, other, item), viewer, other, item)
  {
    var c := ClearAsWritten(s, viewer, other, item);
    forall m | m in ConversationAsWritten(c, viewer, other, item)
      ensures m.sender == other && m.recipient == other && other != viewer
    {
      var k :| 0 <= k < |c| && c[k] == m;
    }
    forall m | m in s && m.item == item && m.sender == other && m.recipient == other && other != viewer
      ensures m in c
    {
      var k :| 0 <= k < |s| && s[k] == m;
      assert Unflagged(c[k]) == Unflagged(m);
      assert c[k] == m;
    }
  }

  /** A concrete store on which the as-written view shows user 1 a note
      user 2 addressed to themself, and user 1's clear cannot hide it. */
  lemma CounterpartNoteSurvivesClear()
    ensures var note := NewMessage(1, 2, 2, 7, "note to self", None, 0);
            && ConversationAsWritten([note], 1, 2, 7) == [note]
            && ConversationAsWritten(ClearAsWritten([note], 1, 2, 7), 1, 2, 7) == [note]
            && Conversation([note], 1, 2, 7) == []
  {
    var note := NewMessage(1, 2, 2, 7, "note to self", None, 0);
    assert ClearAsWritten([note], 1, 2, 7)[0] == note;
    assert ClearAsWritten([note], 1, 2, 7) == [note];
    assert Filter([note], ShownAsWrittenTo(1, 2, 7)) == Filter([], ShownAsWrittenTo(1, 2, 7)) + [note] by {
      assert [note][..0] == [];
    }
    assert Filter([note], ShownTo(1, 2, 7)) == [] by {
      assert [note][..0] == [];
    }
  }

  /** A concrete store on which the as-written clear of user 1's chat with
      user 2 also hides user 1's own note to self from user 1's chat with
      user 3 about the same item: both UPDATE statements match that note. */
  lemma ViewerNoteHiddenFromOtherChats()
    ensures var mine := NewMessage(1, 1, 1, 7, "mine", None, 0);
            && ConversationAsWritten([mine], 1, 3, 7) == [mine]
            && ConversationAsWritten(ClearAsWritten([mine], 1, 2, 7), 1, 3, 7) == []
            && Clear([mine], 1, 2, 7) == [mine]
  {
    var mine := NewMessage(1, 1, 1, 7, "mine", None, 0);
    var cleared := mine.(deletedBySender := true, deletedByRecipient := true);
    assert ClearRowAsWritten(mine, 1, 2, 7) == cleared;
    assert ClearAsWritten([mine], 1, 2, 7) == [cleared];
    assert ClearRow(mine, 1, 2, 7) == mine;
    assert Clear([mine], 1, 2, 7) == [mine];
    assert Filter([mine], ShownAsWrittenTo(1, 3, 7)) == Filter([], ShownAsWrittenTo(1, 3, 7)) + [mine] by {
      assert [mine][..0] == [];
    }
    assert Filter([cleared], ShownAsWrittenTo(1, 3, 7)) == [] by {
      assert [cleared][..0] == [];
    }
  }

  /** A concrete store on which, as written, user 2 sending a note to
      themself puts it into user 1's chat with user 2. */
  lemma CounterpartNoteEntersChat()
    ensures var note := NewMessage(1, 2, 2, 7, "n", None, 0);
            && ConversationAsWritten(Send([], 2, 2, 7, "n", 0), 1, 2, 7) == [note]
            && Conversation(Send([], 2, 2, 7, "n", 0), 1, 2, 7) == []
  {
    var note := NewMessage(1, 2, 2, 7, "n", None, 0);
    assert Send([], 2, 2, 7, "n", 0) == [note];
    assert Filter([note], ShownAsWrittenTo(1, 2, 7)) == Filter([], ShownAsWrittenTo(1, 2, 7)) + [note] by {
      assert [note][..0] == [];
    }
    assert Filter([note], ShownTo(1, 2, 7)) == [] by {
      assert [note][..0] == [];
    }
  }

  // ---------------------------------------------------------------------
  // Clear, as intended

  /** Clears one row for `viewer`: the viewer's own deletion flag is raised
      when the row belongs to the conversation, and nothing else changes. */
  function ClearRow(m: Message, viewer: UserId, other: UserId, item: ItemId): (r: Message)
    ensures !Exchanged(m, viewer, other, item) ==> r == m
    ensures Unflagged(r) == Unflagged(m)
    ensures r.deletedBySender == (m.deletedBySender || (Exchanged(m, viewer, other, item) && m.sender == viewer))
    ensures r.deletedByRecipient == (m.deletedByRecipient || (Exchanged(m, viewer, other, item) && m.recipient == viewer))
  {
    var m' := if Exchanged(m, viewer, other, item) && m.sender == viewer then m.(deletedBySender := true) else m;
    if Exchanged(m', viewer, other, item) && m'.recipient == viewer then m'.(deletedByRecipient := true) else m'
  }

  function Clearing(viewer: UserId, other: UserId, item: ItemId): Message -> Message {
    m => ClearRow(m, viewer, other, item)
  }

  /** Clears the conversation for `viewer` only: raises the viewer's own
      deletion flag on every row of the conversation and changes nothing else. */
  function Clear(s: seq<Message>, viewer: UserId, other: UserId, item: ItemId): (r: seq<Message>)
    ensures |r| == |s|
    ensures forall k :: 0 <= k < |s| && !Exchanged(s[k], viewer, other, item) ==> r[k] == s[k]
    ensures forall k :: 0 <= k < |s| ==> Unflagged(r[k]) == Unflagged(s[k])
    ensures forall k :: 0 <= k < |s| ==>
              r[k].deletedBySender == (s[k].deletedBySender || (Exchanged(s[k], viewer, other, item) && s[k].sender == viewer))
    ensures forall k :: 0 <= k < |s| ==>
              r[k].deletedByRecipient == (s[k].deletedByRecipient || (Exchanged(s[k], viewer, other, item) && s[k].recipient == viewer))
  {
    Map(s, Clearing(viewer, other, item))
  }

  /** Without self-addressed rows the view's filter and the intended one
      select the same rows, so the as-written and intended conversation and
      clear coincide. */
  lemma AsWrittenAgreesWithoutSelfAddressed(s: seq<Message>, viewer: UserId, other: UserId, item: ItemId)
    requires forall k :: 0 <= k < |s| ==> !SelfAddressed(s[k])
    ensures ConversationAsWritten(s, viewer, other, item) == Conversation(s, viewer, other, item)
    ensures ClearAsWritten(s, viewer, other, item) == Clear(s, viewer, other, item)
  {
    forall y | y in s ensures ShownAsWrittenTo(viewer, other, item)(y) == ShownTo(viewer, other, item)(y) {
      var k :| 0 <= k < |s| && s[k] == y;
    }
    FilterCongruent(s, ShownAsWrittenTo(viewer, other, item), ShownTo(viewer, other, item));
  }

  /** After clearing, the viewer's conversation is empty. */
  lemma ClearEmptiesConversation(s: seq<Message>, viewer: UserId, other: UserId, item: ItemId)
    ensures Conversation(Clear(s, viewer, other, item), viewer, other, item) == []
  {
    var c := Clear(s, viewer, other, item);
    var r := Conversation(c, viewer, other, item);
    forall m | m in c ensures !(Exchanged(m, viewer, other, item) && !HiddenFrom(m, viewer)) {
      var k :| 0 <= k < |c| && c[k] == m;
    }
  }

  /** Clearing a second time changes nothing, as written and as intended. */
  lemma ClearIdempotent(s: seq<Message>, viewer: UserId, other: UserId, item: ItemId)
    ensures ClearAsWritten(ClearAsWritten(s, viewer, other, item), viewer, other, item)
         == ClearAsWritten(s, viewer, other, item)
    ensures Clear(Clear(s, viewer, other, item), viewer, other, item) == Clear(s, viewer, other, item)
  {
  }

  /** A user's clear never changes what any other user sees, in any
      conversation: the same rows in the same order, up to deletion flags.
      This holds for the view's own filter and clear as for the intended ones. */
  lemma ClearInvisibleToOthers(s: seq<Message>, viewer: UserId, other: UserId, item: ItemId,
                               u: UserId, w: UserId, j: ItemId)
    requires u != viewer
    ensures Map(ConversationAsWritten(ClearAsWritten(s, viewer, other, item), u, w, j), Unflagged)
         == Map(ConversationAsWritten(s, u, w, j), Unflagged)
    ensures Map(Conversation(Clear(s, viewer, other, item), u, w, j), Unflagged)
         == Map(Conversation(s, u, w, j), Unflagged)
  {
    ClearAsWrittenInvisibleToOthers(s, viewer, other, item, u, w, j);
    var f := Clearing(viewer, other, item);
    var p := ShownTo(u, w, j);
    FilterMap(s, f, p, p);
    SortMap(Filter(s, p), Stamp, f);
    MapThenProject(Conversation(s, u, w, j), f, Unflagged);
  }

  /** The as-written half of `ClearInvisibleToOthers`. */
  lemma ClearAsWrittenInvisibleToOthers(s: seq<Message>, viewer: UserId, other: UserId, item: ItemId,
                                        u: UserId, w: UserId, j: ItemId)
    requires u != viewer
    ensures Map(ConversationAsWritten(ClearAsWritten(s, viewer, other, item), u, w, j), Unflagged)
         == Map(ConversationAsWritten(s, u, w, j), Unflagged)
  {
    var f := ClearingAsWritten(viewer, other, item);
    var p := ShownAsWrittenTo(u, w, j);
    FilterMap(s, f, p, p);
    SortMap(Filter(s, p), Stamp, f);
    MapThenProject(ConversationAsWritten(s, u, w, j), f, Unflagged);
  }

  /** The view's clear is for the clearing user only: every other user's
      every conversation shows the same records in the same order. */
  lemma ClearAsWrittenForViewerOnly(s: seq<Message>, viewer: UserId, other: UserId, item: ItemId)
    ensures forall u, w, j :: u != viewer ==>
              Map(ConversationAsWritten(ClearAsWritten(s, viewer, other, item), u, w, j), Unflagged)
              == Map(ConversationAsWritten(s, u, w, j), Unflagged)
  {
    forall u, w, j | u != viewer
      ensures Map(ConversationAsWritten(ClearAsWritten(s, viewer, other, item), u, w, j), Unflagged)
           == Map(ConversationAsWritten(s, u, w, j), Unflagged)
    {
      ClearAsWrittenInvisibleToOthers(s, viewer, other, item, u, w, j);
    }
  }

  /** The same for the intended clear. */
  lemma ClearForViewerOnly(s: seq<Message>, viewer: UserId, other: UserId, item: ItemId)
    ensures forall u, w, j :: u != viewer ==>
              Map(Conversation(Clear(s, viewer, other, item), u, w, j), Unflagged)
              == Map(Conversation(s, u, w, j), Unflagged)
  {
    forall u, w, j | u != viewer
      ensures Map(Conversation(Clear(s, viewer, other, item), u, w, j), Unflagged)
           == Map(Conversation(s, u, w, j), Unflagged)
    {
      ClearInvisibleToOthers(s, viewer, other, item, u, w, j);
    }
  }

  /** The counterpart keeps seeing the whole conversation after the viewer
      clears it, as written and as intended. */
  lemma ClearKeepsCounterpartView(s: seq<Message>, viewer: UserId, other: UserId, item: ItemId)
    requires viewer != other
    ensures Map(ConversationAsWritten(ClearAsWritten(s, viewer, other, item), other, viewer, item), Unflagged)
         == Map(ConversationAsWritten(s, other, viewer, item), Unflagged)
    ensures Map(Conversation(Clear(s, viewer, other, item), other, viewer, item), Unflagged)
         == Map(Conversation(s, other, viewer, item), Unflagged)
  {
    ClearInvisibleToOthers(s, viewer, other, item, other, viewer, item);
  }

  /** The viewer holds no note to self about `item`. */
  predicate NoOwnNotes(s: seq<Message>, viewer: UserId, item: ItemId) {
    forall k :: 0 <= k < |s| ==> !(s[k].item == item && s[k].sender == viewer && s[k].recipient == viewer)
  }

  /** Clearing one conversation leaves the viewer's other conversations as
      they were. As intended this always holds; as written it holds when the
      viewer has no note to self about the item, which the view's clear
      would hide from every one of the viewer's chats about the item. */
  lemma ClearKeepsOtherConversations(s: seq<Message>, viewer: UserId, other: UserId, item: ItemId,
                                     w: UserId, j: ItemId)
    requires w != other || j != item
    ensures Conversation(Clear(s, viewer, other, item), viewer, w, j) == Conversation(s, viewer, w, j)
    ensures NoOwnNotes(s, viewer, item) ==>
              ConversationAsWritten(ClearAsWritten(s, viewer, other, item), viewer, w, j)
              == ConversationAsWritten(s, viewer, w, j)
  {
    var f := Clearing(viewer, other, item);
    var p := ShownTo(viewer, w, j);
    forall y | y in Filter(s, p) ensures f(y) == y {
    }
    FilterMap(s, f, p, p);
    assert Map(Filter(s, p), f) == Filter(s, p);
    if NoOwnNotes(s, viewer, item) {
      ClearAsWrittenKeepsOtherConversations(s, viewer, other, item, w, j);
    }
  }

  /** The as-written half of `ClearKeepsOtherConversations`. */
  lemma ClearAsWrittenKeepsOtherConversations(s: seq<Message>, viewer: UserId, other: UserId, item: ItemId,
                                              w: UserId, j: ItemId)
    requires w != other || j != item
    requires NoOwnNotes(s, viewer, item)
    ensures ConversationAsWritten(ClearAsWritten(s, viewer, other, item), viewer, w, j)
         == ConversationAsWritten(s, viewer, w, j)
  {
    var f := ClearingAsWritten(viewer, other, item);
    var p := ShownAsWrittenTo(viewer, w, j);
    forall y | y in s ensures p(f(y)) == p(y) && (p(y) ==> f(y) == y) {
      var k :| 0 <= k < |s| && s[k] == y;
    }
    FilterMap(s, f, p, p);
    assert Map(Filter(s, p), f) == Filter(s, p);
  }

  /** `ClearAsWrittenKeepsOtherConversations` for every other counterpart
      and item at once. */
  lemma ClearAsWrittenKeepsViewerOtherChats(s: seq<Message>, viewer: UserId, other: UserId, item: ItemId)
    ensures forall w, j :: (w != other || j != item) && NoOwnNotes(s, viewer, item) ==>
              ConversationAsWritten(ClearAsWritten(s, viewer, other, item), viewer, w, j)
              == ConversationAsWritten(s, viewer, w, j)
  {
    forall w, j | (w != other || j != item) && NoOwnNotes(s, viewer, item)
      ensures ConversationAsWritten(ClearAsWritten(s, viewer, other, item), viewer, w, j)
           == ConversationAsWritten(s, viewer, w, j)
    {
      ClearAsWrittenKeepsOtherConversations(s, viewer, other, item, w, j);
    }
  }

  /** `ClearKeepsOtherConversations` for every other counterpart and item
      at once. */
  lemma ClearKeepsViewerOtherChats(s: seq<Message>, viewer: UserId, other: UserId, item: ItemId)
    ensures forall w, j :: w != other || j != item ==>
              Conversation(Clear(s, viewer, other, item), viewer, w, j) == Conversation(s, viewer, w, j)
  {
    forall w, j | w != other || j != item
      ensures Conversation(Clear(s, viewer, other, item), viewer, w, j) == Conversation(s, viewer, w, j)
    {
      ClearKeepsOtherConversations(s, viewer, other, item, w, j);
    }
  }

  // ---------------------------------------------------------------------
  // Send

  /** Id the next stored message receives (auto-increment, no row is ever removed). */
  function NextMessageId(s: seq<Message>): nat {
    |s| + 1
  }

  /** Appends one new message row from `sender` stamped at `now`. */
  function Send(s: seq<Message>, sender: UserId, recipient: UserId, item: ItemId,
                content: string, now: Time): (r: seq<Message>)
    ensures |r| == |s| + 1 && r[..|s|] == s
    ensures r[|s|] == NewMessage(|s| + 1, sender, recipient, item, content, None, now)
    ensures Exchanged(r[|s|], sender, recipient, item) && Exchanged(r[|s|], recipient, sender, item)
    ensures !HiddenFrom(r[|s|], sender) && !HiddenFrom(r[|s|], recipient)
  {
    var r := s + [NewMessage(NextMessageId(s), sender, recipient, item, content, None, now)];
    assert r[..|s|] == s;
    r
  }

  /** No stored row is stamped later than `now`: the clock is monotone. */
  predicate ClockAfter(s: seq<Message>, now: Time) {
    forall k :: 0 <= k < |s| ==> s[k].timestamp <= now
  }

  /** The store's own invariant: ids are 1, 2, 3, ... in insertion order and
      timestamps never decrease along it. */
  predicate StoreValid(s: seq<Message>) {
    && (forall k :: 0 <= k < |s| ==> s[k].id == k + 1)
    && SortedBy(s, Stamp)
  }

  /** Sending on a monotone clock keeps the store's invariant; so does
      clearing, as written and as intended. */
  lemma OperationsKeepStoreValid(s: seq<Message>, sender: UserId, recipient: UserId, item: ItemId,
                                 content: string, now: Time)
    requires StoreValid(s) && ClockAfter(s, now)
    ensures StoreValid(Send(s, sender, recipient, item, content, now))
    ensures StoreValid(ClearAsWritten(s, sender, recipient, item))
    ensures StoreValid(Clear(s, sender, recipient, item))
  {
  }

  /** On a valid store, ordering the conversation by timestamp keeps the
      store's own order of its rows, with either pair filter. */
  lemma ConversationInStoreOrder(s: seq<Message>, viewer: UserId, other: UserId, item: ItemId)
    requires StoreValid(s)
    ensures ConversationAsWritten(s, viewer, other, item) == Filter(s, ShownAsWrittenTo(viewer, other, item))
    ensures Conversation(s, viewer, other, item) == Filter(s, ShownTo(viewer, other, item))
  {
    FilterKeepsSorted(s, ShownAsWrittenTo(viewer, other, item), Stamp);
    SortOfSorted(Filter(s, ShownAsWrittenTo(viewer, other, item)), Stamp);
    FilterKeepsSorted(s, ShownTo(viewer, other, item), Stamp);
    SortOfSorted(Filter(s, ShownTo(viewer, other, item)), Stamp);
  }

  /** Appending a row stamped no earlier than any stored row, which `p`
      keeps, adds it at the end of the sorted selection. */
  lemma AppendLatest(s: seq<Message>, x: Message, p: Message -> bool)
    requires forall k :: 0 <= k < |s| ==> s[k].timestamp <= x.timestamp
    requires p(x)
    ensures Sort(Filter(s + [x], p), Stamp) == Sort(Filter(s, p), Stamp) + [x]
  {
    FilterAppend(s, x, p);
    forall y | y in Filter(s, p) ensures Stamp(y) <= Stamp(x) {
      var k :| 0 <= k < |s| && s[k] == y;
    }
    SortAppendGreatest(Filter(s, p), x, Stamp);
  }

  /** A new message shows up last in both participants' conversations,
      after everything they could already see, as written and as intended. */
  lemma SendAppendsToConversation(s: seq<Message>, sender: UserId, recipient: UserId, item: ItemId,
                                  content: string, now: Time, u: UserId, w: UserId)
    requires ClockAfter(s, now)
    requires (u == sender && w == recipient) || (u == recipient && w == sender)
    ensures ConversationAsWritten(Send(s, sender, recipient, item, content, now), u, w, item)
         == ConversationAsWritten(s, u, w, item) + [NewMessage(|s| + 1, sender, recipient, item, content, None, now)]
    ensures Conversation(Send(s, sender, recipient, item, content, now), u, w, item)
         == Conversation(s, u, w, item) + [NewMessage(|s| + 1, sender, recipient, item, content, None, now)]
  {
    SendAppendsAsWritten(s, sender, recipient, item, content, now, u, w);
    SendAppendsIntended(s, sender, recipient, item, content, now, u, w);
  }

  /** The as-written half of `SendAppendsToConversation`. */
  lemma SendAppendsAsWritten(s: seq<Message>, sender: UserId, recipient: UserId, item: ItemId,
                             content: string, now: Time, u: UserId, w: UserId)
    requires ClockAfter(s, now)
    requires (u == sender && w == recipient) || (u == recipient && w == sender)
    ensures ConversationAsWritten(Send(s, sender, recipient, item, content, now), u, w, item)
         == ConversationAsWritten(s, u, w, item) + [NewMessage(|s| + 1, sender, recipient, item, content, None, now)]
  {
    AppendLatest(s, NewMessage(|s| + 1, sender, recipient, item, content, None, now), ShownAsWrittenTo(u, w, item));
  }

  /** The intended half of `SendAppendsToConversation`. */
  lemma SendAppendsIntended(s: seq<Message>, sender: UserId, recipient: UserId, item: ItemId,
                            content: string, now: Time, u: UserId, w: UserId)
    requires ClockAfter(s, now)
    requires (u == sender && w == recipient) || (u == recipient && w == sender)
    ensures Conversation(Send(s, sender, recipient, item, content, now), u, w, item)
         == Conversation(s, u, w, item) + [NewMessage(|s| + 1, sender, recipient, item, content, None, now)]
  {
    AppendLatest(s, NewMessage(|s| + 1, sender, recipient, item, content, None, now), ShownTo(u, w, item));
  }

  /** With the intended filter, a new message leaves every conversation it
      was not exchanged in as it was. */
  lemma SendLeavesOtherConversations(s: seq<Message>, sender: UserId, recipient: UserId, item: ItemId,
                                     content: string, now: Time, u: UserId, w: UserId, j: ItemId)
    requires j != item || !((u == sender && w == recipient) || (u == recipient && w == sender))
    ensures Conversation(Send(s, sender, recipient, item, content, now), u, w, j) == Conversation(s, u, w, j)
  {
    FilterAppend(s, NewMessage(|s| + 1, sender, recipient, item, content, None, now), ShownTo(u, w, j));
  }

  /** With the view's filter, a new message leaves a conversation as it was
      exactly when the pair filter of that conversation rejects it; a note
      to oneself passes the filter of every conversation its author has
      about the item. */
  lemma SendAsWrittenLeavesOtherConversations(s: seq<Message>, sender: UserId, recipient: UserId, item: ItemId,
                                              content: string, now: Time, u: UserId, w: UserId, j: ItemId)
    ensures var x := NewMessage(|s| + 1, sender, recipient, item, content, None, now);
            ConversationAsWritten(Send(s, sender, recipient, item, content, now), u, w, j) == ConversationAsWritten(s, u, w, j)
            <==> !InPair(x, u, w, j)
  {
    var x := NewMessage(|s| + 1, sender, recipient, item, content, None, now);
    var s' := Send(s, sender, recipient, item, content, now);
    FilterAppend(s, x, ShownAsWrittenTo(u, w, j));
    if InPair(x, u, w, j) {
      assert multiset(ConversationAsWritten(s', u, w, j))[x] == multiset(s')[x];
      assert s' == s + [x];
      assert multiset(s')[x] == multiset(s)[x] + 1;
    }
  }

  /** A cleared conversation comes back with the next message. With the
      intended filter, whichever of the two sends it, the clearing user then
      sees that message alone, with its content and unread. As written, the
      message follows the rows the clear left visible, which are notes the
      counterpart addressed to themself about the item. */
  lemma ClearedConversationReappears(s: seq<Message>, viewer: UserId, other: UserId, item: ItemId,
                                     sender: UserId, content: string, now: Time)
    requires ClockAfter(s, now)
    requires sender == viewer || sender == other
    ensures var recipient := if sender == viewer then other else viewer;
            var c := ClearAsWritten(s, viewer, other, item);
            ConversationAsWritten(Send(c, sender, recipient, item, content, now), viewer, other, item)
            == ConversationAsWritten(c, viewer, other, item) + [NewMessage(|s| + 1, sender, recipient, item, content, None, now)]
    ensures forall m :: m in ConversationAsWritten(ClearAsWritten(s, viewer, other, item), viewer, other, item) ==>
              m.sender == other && m.recipient == other && other != viewer
    ensures var recipient := if sender == viewer then other else viewer;
            Conversation(Send(Clear(s, viewer, other, item), sender, recipient, item, content, now), viewer, other, item)
            == [NewMessage(|s| + 1, sender, recipient, item, content, None, now)]
  {
    ClearedConversationReappearsAsWritten(s, viewer, other, item, sender, content, now);
    ClearedConversationReappearsIntended(s, viewer, other, item, sender, content, now);
  }

  /** The intended half of `ClearedConversationReappears`. */
  lemma ClearedConversationReappearsIntended(s: seq<Message>, viewer: UserId, other: UserId, item: ItemId,
                                             sender: UserId, content: string, now: Time)
    requires ClockAfter(s, now)
    requires sender == viewer || sender == other
    ensures var recipient := if sender == viewer then other else viewer;
            Conversation(Send(Clear(s, viewer, other, item), sender, recipient, item, content, now), viewer, other, item)
            == [NewMessage(|s| + 1, sender, recipient, item, content, None, now)]
  {
    var recipient := if sender == viewer then other else viewer;
    var c := Clear(s, viewer, other, item);
    ClearKeepsClock(s, viewer, other, item, now);
    ClearEmptiesConversation(s, viewer, other, item);
    SendAppendsIntended(c, sender, recipient, item, content, now, viewer, other);
  }

  /** The as-written half of `ClearedConversationReappears`. */
  lemma ClearedConversationReappearsAsWritten(s: seq<Message>, viewer: UserId, other: UserId, item: ItemId,
                                              sender: UserId, content: string, now: Time)
    requires ClockAfter(s, now)
    requires sender == viewer || sender == other
    ensures var recipient := if sender == viewer then other else viewer;
            var c := ClearAsWritten(s, viewer, other, item);
            ConversationAsWritten(Send(c, sender, recipient, item, content, now), viewer, other, item)
            == ConversationAsWritten(c, viewer, other, item) + [NewMessage(|s| + 1, sender, recipient, item, content, None, now)]
    ensures forall m :: m in ConversationAsWritten(ClearAsWritten(s, viewer, other, item), viewer, other, item) ==>
              m.sender == other && m.recipient == other && other != viewer
  {
    var recipient := if sender == viewer then other else viewer;
    var c := ClearAsWritten(s, viewer, other, item);
    ClearAsWrittenKeepsClock(s, viewer, other, item, now);
    ClearAsWrittenLeavesCounterpartNotes(s, viewer, other, item);
    SendAppendsAsWritten(c, sender, recipient, item, content, now, viewer, other);
  }

  /** The view's clear rewrites deletion flags only, so the clock stays
      ahead of every row. */
  lemma ClearAsWrittenKeepsClock(s: seq<Message>, viewer: UserId, other: UserId, item: ItemId, now: Time)
    requires ClockAfter(s, now)
    ensures ClockAfter(ClearAsWritten(s, viewer, other, item), now)
  {
    var c := ClearAsWritten(s, viewer, other, item);
    forall k | 0 <= k < |s| ensures c[k].timestamp <= now {
      assert Unflagged(c[k]) == Unflagged(s[k]);
    }
  }

  /** So does the intended clear. */
  lemma ClearKeepsClock(s: seq<Message>, viewer: UserId, other: UserId, item: ItemId, now: Time)
    requires ClockAfter(s, now)
    ensures ClockAfter(Clear(s, viewer, other, item), now)
  {
    var c := Clear(s, viewer, other, item);
    forall k | 0 <= k < |s| ensures c[k].timestamp <= now {
      assert Unflagged(c[k]) == Unflagged(s[k]);
    }
  }

  // ---------------------------------------------------------------------
  // The view

  /** What the client posted, with the message form's verdict: the cleaned
      message text, or None when the form rejected the submission. */
  datatype Request = Show | ClearThread | Submit(form: Option<string>)

  datatype Response = ThreadPage(conversation: seq<Message>) | RedirectToThread | PageNotFound

  datatype Outcome = Outcome(store: seq<Message>, response: Response)

  /** The `send_message` view for an authenticated `viewer`, with the pair
      filter as written: both the item and the recipient must exist; a
      clear request clears and redirects, a valid submission sends and
      redirects, anything else renders the conversation. After a clear the
      viewer still sees the counterpart's notes to themself, and only those. */
  function SendMessageView(users: seq<User>, items: seq<Item>, s: seq<Message>, viewer: UserId,
                           itemId: ItemId, recipientId: UserId, req: Request, now: Time): (r: Outcome)
    ensures FindItem(items, itemId).None? || !UserExists(users, recipientId) ==> r == Outcome(s, PageNotFound)
    ensures r.response.PageNotFound? ==> r.store == s
    ensures r.response.ThreadPage? ==> r.store == s
    ensures r.store != s ==> r.response == RedirectToThread
    ensures |s| <= |r.store| <= |s| + 1
    ensures FindItem(items, itemId).Some? && UserExists(users, recipientId) && req == ClearThread ==>
              && r.response == RedirectToThread
              && |r.store| == |s|
              && (forall k :: 0 <= k < |s| ==> Unflagged(r.store[k]) == Unflagged(s[k]))
              && (forall m :: m in ConversationAsWritten(r.store, viewer, recipientId, itemId) <==>
                    m in s && m.item == itemId && m.sender == recipientId && m.recipient == recipientId
                    && recipientId != viewer)
              && (forall u, w, j :: u != viewer ==>
                    Map(ConversationAsWritten(r.store, u, w, j), Unflagged) == Map(ConversationAsWritten(s, u, w, j), Unflagged))
              && (forall w, j :: (w != recipientId || j != itemId) && NoOwnNotes(s, viewer, itemId) ==>
                    ConversationAsWritten(r.store, viewer, w, j) == ConversationAsWritten(s, viewer, w, j))
    ensures FindItem(items, itemId).Some? && UserExists(users, recipientId) && req.Submit? && req.form.Some? ==>
              && r.response == RedirectToThread
              && |r.store| == |s| + 1 && r.store[..|s|] == s
              && r.store[|s|] == NewMessage(|s| + 1, viewer, recipientId, itemId, req.form.value, None, now)
    ensures FindItem(items, itemId).Some? && UserExists(users, recipientId) && (req == Show || req == Submit(None)) ==>
              r == Outcome(s, ThreadPage(ConversationAsWritten(s, viewer, recipientId, itemId)))
  {
    if FindItem(items, itemId).None? || !UserExists(users, recipientId) then Outcome(s, PageNotFound)
    else
      match req
      case ClearThread =>
        ClearAsWrittenLeavesCounterpartNotes(s, viewer, recipientId, itemId);
        ClearAsWrittenKeepsRows(s, viewer, recipientId, itemId);
        ClearAsWrittenForViewerOnly(s, viewer, recipientId, itemId);
        ClearAsWrittenKeepsViewerOtherChats(s, viewer, recipientId, itemId);
        Outcome(ClearAsWritten(s, viewer, recipientId, itemId), RedirectToThread)
      case Submit(Some(text)) => Outcome(Send(s, viewer, recipientId, itemId, text, now), RedirectToThread)
      case _ => Outcome(s, ThreadPage(ConversationAsWritten(s, viewer, recipientId, itemId)))
  }

  /** The rows the view still shows after its clear are rows of the store:
      a counterpart's note is untouched by the clear. */
  lemma ClearAsWrittenKeepsRows(s: seq<Message>, viewer: UserId, other: UserId, item: ItemId)
    ensures forall m :: m in ConversationAsWritten(ClearAsWritten(s, viewer, other, item), viewer, other, item) ==> m in s
  {
    var c := ClearAsWritten(s, viewer, other, item);
    ClearAsWrittenLeavesCounterpartNotes(s, viewer, other, item);
    forall m | m in ConversationAsWritten(c, viewer, other, item) ensures m in s {
      var k :| 0 <= k < |c| && c[k] == m;
      assert Unflagged(c[k]) == Unflagged(s[k]);
      assert c[k] == s[k];
    }
  }

  /** The `send_message` view with the intended pair filter: the same
      dispatch, with a clear that empties the thread. */
  function SendMessageViewCorrected(users: seq<User>, items: seq<Item>, s: seq<Message>, viewer: UserId,
                                    itemId: ItemId, recipientId: UserId, req: Request, now: Time): (r: Outcome)
    ensures FindItem(items, itemId).None? || !UserExists(users, recipientId) ==> r == Outcome(s, PageNotFound)
    ensures r.response.PageNotFound? ==> r.store == s
    ensures r.response.ThreadPage? ==> r.store == s
    ensures r.store != s ==> r.response == RedirectToThread
    ensures |s| <= |r.store| <= |s| + 1
    ensures FindItem(items, itemId).Some? && UserExists(users, recipientId) && req == ClearThread ==>
              && r.response == RedirectToThread
              && |r.store| == |s|
              && (forall k :: 0 <= k < |s| ==> Unflagged(r.store[k]) == Unflagged(s[k]))
              && Conversation(r.store, viewer, recipientId, itemId) == []
              && (forall u, w, j :: u != viewer ==>
                    Map(Conversation(r.store, u, w, j), Unflagged) == Map(Conversation(s, u, w, j), Unflagged))
              && (forall w, j :: w != recipientId || j != itemId ==>
                    Conversation(r.store, viewer, w, j) == Conversation(s, viewer, w, j))
    ensures FindItem(items, itemId).Some? && UserExists(users, recipientId) && req.Submit? && req.form.Some? ==>
              && r.response == RedirectToThread
              && |r.store| == |s| + 1 && r.store[..|s|] == s
              && r.store[|s|] == NewMessage(|s| + 1, viewer, recipientId, itemId, req.form.value, None, now)
    ensures FindItem(items, itemId).Some? && UserExists(users, recipientId) && (req == Show || req == Submit(None)) ==>
              r == Outcome(s, ThreadPage(Conversation(s, viewer, recipientId, itemId)))
  {
    if FindItem(items, itemId).None? || !UserExists(users, recipientId) then Outcome(s, PageNotFound)
    else
      match req
      case ClearThread =>
        ClearEmptiesConversation(s, viewer, recipientId, itemId);
        ClearForViewerOnly(s, viewer, recipientId, itemId);
        ClearKeepsViewerOtherChats(s, viewer, recipientId, itemId);
        Outcome(Clear(s, viewer, recipientId, itemId), RedirectToThread)
      case Submit(Some(text)) => Outcome(Send(s, viewer, recipientId, itemId, text, now), RedirectToThread)
      case _ => Outcome(s, ThreadPage(Conversation(s, viewer, recipientId, itemId)))
  }

  /** As written, the page shown after the redirect that follows a clear
      lists the counterpart's notes to themself about the item, and nothing
      else; on a store without such notes it is an empty thread. */
  lemma ClearThenShowListsCounterpartNotes(users: seq<User>, items: seq<Item>, s: seq<Message>, viewer: UserId,
                                           itemId: ItemId, recipientId: UserId, now: Time, later: Time)
    requires FindItem(items, itemId).Some? && UserExists(users, recipientId)
    ensures var cleared := SendMessageView(users, items, s, viewer, itemId, recipientId, ClearThread, now);
            var shown := SendMessageView(users, items, cleared.store, viewer, itemId, recipientId, Show, later);
            && cleared.response == RedirectToThread
            && shown.store == cleared.store && shown.response.ThreadPage?
            && (forall m :: m in shown.response.conversation <==>
                  m in s && m.item == itemId && m.sender == recipientId && m.recipient == recipientId
                  && recipientId != viewer)
  {
  }

  /** With the intended filter, the page shown after the redirect that
      follows a clear is an empty thread. */
  lemma ClearThenShowIsEmpty(users: seq<User>, items: seq<Item>, s: seq<Message>, viewer: UserId,
                             itemId: ItemId, recipientId: UserId, now: Time, later: Time)
    requires FindItem(items, itemId).Some? && UserExists(users, recipientId)
    ensures var cleared := SendMessageViewCorrected(users, items, s, viewer, itemId, recipientId, ClearThread, now);
            && cleared.response == RedirectToThread
            && SendMessageViewCorrected(users, items, cleared.store, viewer, itemId, recipientId, Show, later)
               == Outcome(cleared.store, ThreadPage([]))
  {
    ClearEmptiesConversation(s, viewer, recipientId, itemId);
  }

  /** The page shown after the redirect that follows a valid submission ends
      with the submitted message, after the conversation shown before, as
      written and as intended. */
  lemma SubmitThenShowEndsWithMessage(users: seq<User>, items: seq<Item>, s: seq<Message>, viewer: UserId,
                                      itemId: ItemId, recipientId: UserId, text: string, now: Time, later: Time)
    requires FindItem(items, itemId).Some? && UserExists(users, recipientId)
    requires ClockAfter(s, now)
    ensures var sent := SendMessageView(users, items, s, viewer, itemId, recipientId, Submit(Some(text)), now);
            && sent.response == RedirectToThread
            && SendMessageView(users, items, sent.store, viewer, itemId, recipientId, Show, later)
               == Outcome(sent.store, ThreadPage(ConversationAsWritten(s, viewer, recipientId, itemId)
                            + [NewMessage(|s| + 1, viewer, recipientId, itemId, text, None, now)]))
    ensures var sent := SendMessageViewCorrected(users, items, s, viewer, itemId, recipientId, Submit(Some(text)), now);
            && sent.response == RedirectToThread
            && SendMessageViewCorrected(users, items, sent.store, viewer, itemId, recipientId, Show, later)
               == Outcome(sent.store, ThreadPage(Conversation(s, viewer, recipientId, itemId)
                            + [NewMessage(|s| + 1, viewer, recipientId, itemId, text, None, now)]))
  {
    var sent := SendMessageView(users, items, s, viewer, itemId, recipientId, Submit(Some(text)), now);
    assert sent == Outcome(Send(s, viewer, recipientId, itemId, text, now), RedirectToThread);
    var sent' := SendMessageViewCorrected(users, items, s, viewer, itemId, recipientId, Submit(Some(text)), now);
    assert sent' == Outcome(Send(s, viewer, recipientId, itemId, text, now), RedirectToThread);
    SendAppendsToConversation(s, viewer, recipientId, itemId, text, now, viewer, recipientId);
  }
}

=== FILE: common.dfy ===
/** Failure-carrying wrappers shared by the model, and the errors the
    database and the views can raise. */
module Common {

  /** A nullable value: a field declared `null=True`, or a lookup that may miss. */
  datatype Option<+T> = None | Some(value: T)

  /** The outcome of an operation that the framework may abort with an error. */
  datatype Result<+R, +E> = Success(value: R) | Failure(error: E)

  /** Errors raised by the store and by object lookups. */
  datatype DbError =
    | NotFound          // get_object_or_404 found no row
    | UniqueViolation   // a unique or one-to-one constraint rejected an insert
    | InvalidChoice     // a value outside a field's declared choices
}

=== FILE: inbox.dfy ===
/** The unread-inbox badge: the number of messages a signed-in user has
    received and not read. The count looks at the read flag only; rows the
    user deleted from their side are counted like any other. */
module Inbox {
  import opened Common
  import opened Models
  import opened Chat

  /** `m` was sent to `user` and has not been read. */
  predicate UnreadFor(m: Message, user: UserId) {
    m.recipient == user && !m.isRead
  }

  /** Positions of the store holding a message unread by `user`. */
  function UnreadPositions(s: seq<Message>, user: UserId): set<nat> {
    set k: nat | k < |s| && UnreadFor(s[k], user)
  }

  /** Counts the unread messages received by `user`. */
  function UnreadCount(s: seq<Message>, user: UserId): (r: nat)
    ensures r == |UnreadPositions(s, user)|
    ensures r <= |s|
  {
    if |s| == 0 then
      assert UnreadPositions(s, user) == {};
      0
    else
      var init, last := s[..|s| - 1], s[|s| - 1];
      var before := UnreadPositions(init, user);
      assert forall k :: 0 <= k < |init| ==> init[k] == s[k];
      assert |s| - 1 !in before;
      if UnreadFor(last, user) then
        assert UnreadPositions(s, user) == before + {|s| - 1};
        UnreadCount(init, user) + 1
      else
        assert UnreadPositions(s, user) == before;
        UnreadCount(init, user)
  }

  /** The context value for a request: the signed-in user's unread count,
      and 0 for an anonymous visitor. */
  function UnreadInboxCount(s: seq<Message>, user: Option<UserId>): (r: nat)
    ensures user.None? ==> r == 0
    ensures user.Some? ==> r == |UnreadPositions(s, user.value)|
    ensures r == 0 <==> user.None? || forall k :: 0 <= k < |s| ==> !UnreadFor(s[k], user.value)
  {
    match user
    case None => 0
    case Some(u) =>
      var r := UnreadCount(s, u);
      NoUnreadPositions(s, u);
      r
  }

  /** No unread position means no unread message. */
  lemma NoUnreadPositions(s: seq<Message>, user: UserId)
    ensures UnreadPositions(s, user) == {} <==> forall k :: 0 <= k < |s| ==> !UnreadFor(s[k], user)
  {
    if UnreadPositions(s, user) == {} {
      forall k | 0 <= k < |s| ensures !UnreadFor(s[k], user) {
        assert k !in UnreadPositions(s, user);
      }
    }
  }

  /** A sent message adds one to the recipient's count and to no one else's. */
  lemma SendRaisesRecipientCount(s: seq<Message>, sender: UserId, recipient: UserId, item: ItemId,
                                 content: string, now: Time, user: UserId)
    ensures UnreadCount(Send(s, sender, recipient, item, content, now), user)
         == UnreadCount(s, user) + if user == recipient then 1 else 0
  {
    var s' := Send(s, sender, recipient, item, content, now);
    assert s' == s + [s'[|s|]];
  }

  /** Clearing a conversation, as written or as intended, leaves every
      user's count unchanged, even though the cleared rows are no longer
      shown: the badge may count messages its user cannot see. */
  lemma ClearKeepsUnreadCount(s: seq<Message>, viewer: UserId, other: UserId, item: ItemId, user: UserId)
    ensures UnreadCount(Clear(s, viewer, other, item), user) == UnreadCount(s, user)
    ensures UnreadCount(ClearAsWritten(s, viewer, other, item), user) == UnreadCount(s, user)
  {
    var c := Clear(s, viewer, other, item);
    var c' := ClearAsWritten(s, viewer, other, item);
    forall k | 0 <= k < |s| ensures UnreadFor(c[k], user) == UnreadFor(s[k], user)
                                 && UnreadFor(c'[k], user) == UnreadFor(s[k], user) {
      assert Unflagged(c[k]) == Unflagged(s[k]);
      assert Unflagged(c'[k]) == Unflagged(s[k]);
    }
    assert UnreadPositions(c, user) == UnreadPositions(s, user);
    assert UnreadPositions(c', user) == UnreadPositions(s, user);
  }

  /** A user who clears a conversation holding an unread message they
      received keeps a non-zero badge although the message is no longer
      shown to them. With the intended filter the conversation is then
      empty; as written, the rows still shown are notes the counterpart
      addressed to themself, never a row the user received. */
  lemma ClearedUnreadStillCounted(s: seq<Message>, viewer: UserId, other: UserId, item: ItemId, k: int)
    requires 0 <= k < |s| && InPair(s[k], viewer, other, item) && UnreadFor(s[k], viewer)
    ensures forall m :: m in ConversationAsWritten(ClearAsWritten(s, viewer, other, item), viewer, other, item) ==>
              m.sender == other && m.recipient == other && other != viewer
    ensures UnreadInboxCount(ClearAsWritten(s, viewer, other, item), Some(viewer)) > 0
    ensures Conversation(Clear(s, viewer, other, item), viewer, other, item) == []
    ensures UnreadInboxCount(Clear(s, viewer, other, item), Some(viewer)) > 0
  {
    ClearAsWrittenLeavesCounterpartNotes(s, viewer, other, item);
    ClearEmptiesConversation(s, viewer, other, item);
    ClearKeepsUnreadCount(s, viewer, other, item, viewer);
    assert k in UnreadPositions(s, viewer);
  }
}

=== FILE: listing.dfy ===
/** Item views: the searchable item list and the returned/not-returned
    toggle. */
module Listing {
  import opened Common
  import opened Seqs
  import opened Text
  import opened Models

  // ---------------------------------------------------------------------
  // item_list

  /** The query parameters of the list page. An empty text or status and
      an absent category mean "no filter"; the category arrives as the id
      it names. */
  datatype ItemQuery = ItemQuery(q: string, category: Option<CategoryId>, status: string)

  /** The text search: the query occurs, ignoring case, in the title, the
      description or the location. */
  predicate MatchesText(it: Item, q: string) {
    ContainsIgnoreCase(it.title, q) || ContainsIgnoreCase(it.description, q) || ContainsIgnoreCase(it.location, q)
  }

  /** Every non-empty filter of the query holds of the item. */
  predicate Matches(it: Item, query: ItemQuery) {
    && (query.q == "" || MatchesText(it, query.q))
    && (query.category.None? || it.category == query.category)
    && (query.status == "" || StatusCode(it.status) == query.status)
  }

  function MatchesQuery(query: ItemQuery): Item -> bool {
    it => Matches(it, query)
  }

  /** Ordering key putting the most recently reported item first. */
  function Newest(it: Item): int {
    -(it.dateReported as int)
  }

  /** The items the list page shows, most recently reported first. */
  function ItemList(items: seq<Item>, query: ItemQuery): (r: seq<Item>)
    ensures forall it :: multiset(r)[it] == if Matches(it, query) then multiset(items)[it] else 0
    ensures forall it :: it in r <==>
              && it in items
              && (query.q == "" || ContainsIgnoreCase(it.title, query.q)
                  || ContainsIgnoreCase(it.description, query.q) || ContainsIgnoreCase(it.location, query.q))
              && (query.category.None? || it.category == query.category)
              && (query.status == "" || StatusCode(it.status) == query.status)
    ensures forall i, j :: 0 <= i < j < |r| ==> r[i].dateReported >= r[j].dateReported
  {
    Sort(Filter(items, MatchesQuery(query)), Newest)
  }

  /** With no filter the page lists every item. */
  lemma EmptyQueryListsAll(items: seq<Item>)
    ensures multiset(ItemList(items, ItemQuery("", None, ""))) == multiset(items)
  {
    var r := ItemList(items, ItemQuery("", None, ""));
    assert forall it :: multiset(r)[it] == multiset(items)[it];
  }

  /** The filters compose by conjunction: an item is listed for a query
      exactly when it is listed for each of its filters alone. */
  lemma FiltersCompose(items: seq<Item>, query: ItemQuery, it: Item)
    ensures it in ItemList(items, query) <==>
              && it in ItemList(items, ItemQuery(query.q, None, ""))
              && it in ItemList(items, ItemQuery("", query.category, ""))
              && it in ItemList(items, ItemQuery("", None, query.status))
  {
  }

  /** The text search does not depend on the case of the query. */
  lemma TextSearchIgnoresCase(items: seq<Item>, query: ItemQuery)
    ensures ItemList(items, query.(q := LowerString(query.q))) == ItemList(items, query)
  {
    forall it: Item ensures Matches(it, query.(q := LowerString(query.q))) == Matches(it, query) {
      ContainsIgnoresCase(it.title, query.q);
      ContainsIgnoresCase(it.description, query.q);
      ContainsIgnoresCase(it.location, query.q);
    }
    FilterCongruent(items, MatchesQuery(query.(q := LowerString(query.q))), MatchesQuery(query));
  }

  /** The status filter compares with the stored value exactly: a status
      outside the choices, such as "Lost", lists nothing. */
  lemma UnknownStatusListsNothing(items: seq<Item>, query: ItemQuery)
    requires query.status != "" && query.status !in {"lost", "found"}
    ensures ItemList(items, query) == []
  {
  }

  // ---------------------------------------------------------------------
  // mark_item_returned

  /** The reporter of an item and superusers may toggle it. */
  predicate CanToggle(actor: User, it: Item) {
    actor.id == it.reportedBy || actor.isSuperuser
  }

  /** The flash message the view shows. */
  datatype Notice = MarkedReturned | MarkedNotReturned | PermissionDenied

  datatype ReturnOutcome = ReturnOutcome(items: seq<Item>, notice: Notice)

  /** The toggle view for a signed-in `actor`: flips `is_returned` of the
      item when the actor may, and leaves everything alone otherwise. */
  function MarkItemReturned(items: seq<Item>, actor: User, itemId: ItemId): (r: Result<ReturnOutcome, DbError>)
    ensures r.Failure? <==> FindItem(items, itemId).None?
    ensures r.Failure? ==> r.error == NotFound
    ensures r.Success? ==>
              var k := FindItem(items, itemId).value;
              && |r.value.items| == |items|
              && (forall j :: 0 <= j < |items| && j != k ==> r.value.items[j] == items[j])
              && (CanToggle(actor, items[k]) ==>
                    && r.value.items[k].isReturned == !items[k].isReturned
                    && r.value.items[k].(isReturned := items[k].isReturned) == items[k]
                    && (r.value.notice == MarkedReturned <==> r.value.items[k].isReturned)
                    && r.value.notice != PermissionDenied)
              && (!CanToggle(actor, items[k]) ==> r.value == ReturnOutcome(items, PermissionDenied))
  {
    match FindItem(items, itemId)
    case None => Failure(NotFound)
    case Some(k) =>
      if CanToggle(actor, items[k]) then
        var it := items[k].(isReturned := !items[k].isReturned);
        Success(ReturnOutcome(items[k := it], if it.isReturned then MarkedReturned else MarkedNotReturned))
      else
        Success(ReturnOutcome(items, PermissionDenied))
  }

  /** Lookups by id see the same positions in two stores whose ids agree. */
  lemma {:induction false} FindItemByIds(a: seq<Item>, b: seq<Item>, id: ItemId)
    requires |a| == |b| && forall k :: 0 <= k < |a| ==> a[k].id == b[k].id
    ensures FindItem(a, id) == FindItem(b, id)
  {
    if |a| > 0 && a[0].id != id {
      FindItemByIds(a[1..], b[1..], id);
    }
  }

  /** Two toggles by the same actor restore the original items. */
  lemma ToggleTwiceRestores(items: seq<Item>, actor: User, itemId: ItemId)
    requires MarkItemReturned(items, actor, itemId).Success?
    ensures var once := MarkItemReturned(items, actor, itemId).value.items;
            MarkItemReturned(once, actor, itemId).Success?
            && MarkItemReturned(once, actor, itemId).value.items == items
  {
    var once := MarkItemReturned(items, actor, itemId).value.items;
    FindItemByIds(items, once, itemId);
    var k := FindItem(items, itemId).value;
    assert once[k].reportedBy == items[k].reportedBy;
  }
}

=== FILE: models.dfy ===
/** The records of the lost-and-found schema, their choice domains and
    the values a freshly created row starts with. Users are identified by
    number; image and file uploads are opaque. */
module Models {
  import opened Common

  type UserId = nat
  type ItemId = nat
  type CategoryId = nat

  /** Server clock reading (auto_now_add fields); an abstract monotone counter. */
  type Time = nat

  /** An uploaded image or file, never inspected by the model. */
  datatype Upload = Upload(name: string)

  /** The framework's account record, reduced to what the views consult. */
  datatype User = User(id: UserId, username: string, isSuperuser: bool)

  // ---------------------------------------------------------------------
  // Choice domains

  /** PROFILE_VISIBILITY_CHOICES of a user profile. */
  datatype Visibility = Everyone | Registered | Private

  /** The value stored in the visibility columns. */
  function VisibilityCode(v: Visibility): (r: string)
    ensures r in {"everyone", "registered", "private"}
    ensures |r| <= 20
  {
    match v
    case Everyone => "everyone"
    case Registered => "registered"
    case Private => "private"
  }

  /** Reads a stored visibility value back; anything outside the choices is rejected. */
  function ParseVisibility(s: string): (r: Result<Visibility, DbError>)
    ensures r.Success? <==> s in {"everyone", "registered", "private"}
    ensures r.Success? ==> VisibilityCode(r.value) == s
  {
    if s == "everyone" then Success(Everyone)
    else if s == "registered" then Success(Registered)
    else if s == "private" then Success(Private)
    else Failure(InvalidChoice)
  }

  /** Every visibility survives being stored and read back. */
  lemma VisibilityRoundTrip(v: Visibility)
    ensures ParseVisibility(VisibilityCode(v)) == Success(v)
  {
  }

  /** STATUS_CHOICES of an item. */
  datatype Status = Lost | Found

  /** The value stored in the status column. */
  function StatusCode(s: Status): (r: string)
    ensures r in {"lost", "found"}
    ensures |r| <= 5
  {
    match s
    case Lost => "lost"
    case Found => "found"
  }

  /** Reads a stored status back; anything outside the choices is rejected,
      including differently capitalised spellings. */
  function ParseStatus(s: string): (r: Result<Status, DbError>)
    ensures r.Success? <==> s in {"lost", "found"}
    ensures r.Success? ==> StatusCode(r.value) == s
  {
    if s == "lost" then Success(Lost)
    else if s == "found" then Success(Found)
    else Failure(InvalidChoice)
  }

  /** Every status survives being stored and read back. */
  lemma StatusRoundTrip(s: Status)
    ensures ParseStatus(StatusCode(s)) == Success(s)
  {
  }

  // ---------------------------------------------------------------------
  // Items

  datatype Item = Item(
    id: ItemId,
    title: string,
    description: string,
    category: Option<CategoryId>,
    location: string,
    photo: Option<Upload>,
    status: Status,
    dateReported: Time,
    reportedBy: UserId,
    owner: Option<UserId>,
    isReturned: bool)

  /** Position of the item with this id, as get_object_or_404 looks it up. */
  function FindItem(items: seq<Item>, id: ItemId): (r: Option<nat>)
    ensures r.Some? ==> r.value < |items| && items[r.value].id == id
    ensures r.Some? ==> forall k :: 0 <= k < r.value ==> items[k].id != id
    ensures r.None? <==> forall k :: 0 <= k < |items| ==> items[k].id != id
  {
    if |items| == 0 then None
    else if items[0].id == id then Some(0)
    else
      match FindItem(items[1..], id)
      case None => assert forall k :: 1 <= k < |items| ==> items[k] == items[1..][k - 1]; None
      case Some(k) => assert forall j :: 1 <= j <= k + 1 ==> items[j] == items[1..][j - 1]; Some(k + 1)
  }

  /** Some account has this id. */
  predicate UserExists(users: seq<User>, id: UserId) {
    exists k :: 0 <= k < |users| && users[k].id == id
  }

  /** A freshly reported item: stamped with the report time, not yet returned. */
  function NewItem(id: ItemId, title: string, description: string, category: Option<CategoryId>,
                   location: string, photo: Option<Upload>, status: Status,
                   reportedBy: UserId, now: Time): (r: Item)
    ensures !r.isReturned
    ensures r.owner == None
    ensures r.dateReported == now && r.reportedBy == reportedBy && r.status == status
    ensures r.id == id && r.title == title && r.description == description
    ensures r.category == category && r.location == location && r.photo == photo
  {
    Item(id, title, description, category, location, photo, status, now, reportedBy, None, false)
  }

  // ---------------------------------------------------------------------
  // Messages

  datatype Message = Message(
    id: nat,
    sender: UserId,
    recipient: UserId,
    item: ItemId,
    content: string,
    image: Option<Upload>,
    timestamp: Time,
    isRead: bool,
    deletedBySender: bool,
    deletedByRecipient: bool)

  /** A freshly created message: unread and hidden from nobody. */
  function NewMessage(id: nat, sender: UserId, recipient: UserId, item: ItemId,
                      content: string, image: Option<Upload>, now: Time): (r: Message)
    ensures !r.isRead && !r.deletedBySender && !r.deletedByRecipient
    ensures r.id == id && r.sender == sender && r.recipient == recipient && r.item == item
    ensures r.content == content && r.image == image && r.timestamp == now
  {
    Message(id, sender, recipient, item, content, image, now, false, false, false)
  }

  // ---------------------------------------------------------------------
  // Return confirmations

  datatype ReturnConfirmation = ReturnConfirmation(
    item: ItemId,
    finderConfirmed: bool,
    ownerConfirmed: bool,
    finderPhoto: Option<Upload>,
    ownerPhoto: Option<Upload>,
    finderSignature: Option<string>,
    ownerSignature: Option<string>,
    confirmedAt: Option<Time>)

  /** A freshly created confirmation record: neither side has confirmed. */
  function NewConfirmation(item: ItemId): (r: ReturnConfirmation)
    ensures r.item == item && !r.finderConfirmed && !r.ownerConfirmed
    ensures r.finderPhoto == None && r.ownerPhoto == None && r.confirmedAt == None
    ensures r.finderSignature == None && r.ownerSignature == None
  {
    ReturnConfirmation(item, false, false, None, None, None, None, None)
  }

  /** A return is fully confirmed once both the finder and the owner confirmed it. */
  function IsFullyConfirmed(c: ReturnConfirmation): (r: bool)
    ensures r <==> c.finderConfirmed && c.ownerConfirmed
  {
    c.finderConfirmed && c.ownerConfirmed
  }

  /** Full confirmation needs both sides: a fresh record is not fully
      confirmed, and neither is one that only one side confirmed. */
  lemma FullConfirmationNeedsBoth(c: ReturnConfirmation)
    ensures !IsFullyConfirmed(NewConfirmation(c.item))
    ensures !IsFullyConfirmed(NewConfirmation(c.item).(finderConfirmed := true))
    ensures !IsFullyConfirmed(NewConfirmation(c.item).(ownerConfirmed := true))
    ensures IsFullyConfirmed(c.(finderConfirmed := true, ownerConfirmed := true))
  {
  }

  // ---------------------------------------------------------------------
  // Reviews

  datatype UserReview = UserReview(reviewer: UserId, reviewed: UserId, rating: int,
                                   comment: string, createdAt: Time)

  /** The rating choices 1..5. */
  predicate ValidRating(rating: int) {
    1 <= rating <= 5
  }

  /** The review table's constraints: every rating is one of the choices,
      and no (reviewer, reviewed) pair occurs twice. */
  predicate ReviewsValid(reviews: seq<UserReview>) {
    && (forall k :: 0 <= k < |reviews| ==> ValidRating(reviews[k].rating))
    && (forall i, j :: 0 <= i < j < |reviews| ==>
          (reviews[i].reviewer, reviews[i].reviewed) != (reviews[j].reviewer, reviews[j].reviewed))
  }

  /** Some review already exists for this pair. */
  predicate HasReview(reviews: seq<UserReview>, reviewer: UserId, reviewed: UserId) {
    exists k :: 0 <= k < |reviews| && reviews[k].reviewer == reviewer && reviews[k].reviewed == reviewed
  }

  /** Validates and inserts a review: a rating outside the choices and a
      second review for the same pair are both refused. */
  function AddReview(reviews: seq<UserReview>, review: UserReview): (r: Result<seq<UserReview>, DbError>)
    ensures !ValidRating(review.rating) ==> r == Failure(InvalidChoice)
    ensures ValidRating(review.rating) && HasReview(reviews, review.reviewer, review.reviewed) ==>
              r == Failure(UniqueViolation)
    ensures r.Success? <==> ValidRating(review.rating) && !HasReview(reviews, review.reviewer, review.reviewed)
    ensures r.Success? ==> |r.value| == |reviews| + 1 && r.value[..|reviews|] == reviews
                           && r.value[|reviews|] == review
    ensures ReviewsValid(reviews) && r.Success? ==> ReviewsValid(r.value)
  {
    if !ValidRating(review.rating) then Failure(InvalidChoice)
    else if HasReview(reviews, review.reviewer, review.reviewed) then Failure(UniqueViolation)
    else Success(reviews + [review])
  }

  /** Once a review for a pair is stored, any further review for that pair is refused. */
  lemma SecondReviewRejected(reviews: seq<UserReview>, first: UserReview, second: UserReview)
    requires AddReview(reviews, first).Success?
    requires second.reviewer == first.reviewer && second.reviewed == first.reviewed
    ensures AddReview(AddReview(reviews, first).value, second).Failure?
  {
    var stored := AddReview(reviews, first).value;
    assert stored[|reviews|] == first;
  }
}

=== FILE: seqs.dfy ===
/** Sequence operations the ORM performs on query sets: filtering,
    per-row updates and ordering. The ordering is a stable insertion sort,
    so rows with equal keys keep their store order. */
module Seqs {

  /** The rows of `s` that satisfy `p`, in store order. */
  function Filter<T(!new)>(s: seq<T>, p: T -> bool): (r: seq<T>)
    ensures |r| <= |s|
    ensures forall x :: multiset(r)[x] == if p(x) then multiset(s)[x] else 0
    ensures forall x :: x in r <==> x in s && p(x)
  {
    if |s| == 0 then []
    else
      var init, last := s[..|s| - 1], s[|s| - 1];
      assert s == init + [last];
      if p(last) then Filter(init, p) + [last] else Filter(init, p)
  }

  /** Applies `f` to every row, as an UPDATE does. */
  function Map<T, U>(s: seq<T>, f: T -> U): (r: seq<U>)
    ensures |r| == |s|
    ensures forall k :: 0 <= k < |s| ==> r[k] == f(s[k])
  {
    seq(|s|, k requires 0 <= k < |s| => f(s[k]))
  }

  /** `s` is in ascending order of `key`. */
  predicate SortedBy<T>(s: seq<T>, key: T -> int) {
    forall i, j :: 0 <= i < j < |s| ==> key(s[i]) <= key(s[j])
  }

  /** Places `x` after every element whose key does not exceed its own. */
  function Insert<T>(s: seq<T>, x: T, key: T -> int): (r: seq<T>)
    requires SortedBy(s, key)
    ensures SortedBy(r, key)
    ensures multiset(r) == multiset(s) + multiset{x}
  {
    if |s| == 0 || key(s[|s| - 1]) <= key(x) then s + [x]
    else
      var init, last := s[..|s| - 1], s[|s| - 1];
      assert s == init + [last];
      var r' := Insert(init, x, key);
      forall y | y in r' ensures key(y) <= key(last) {
        assert y in multiset(r');
        if y != x {
          assert y in multiset(init);
          var i :| 0 <= i < |init| && init[i] == y;
        }
      }
      r' + [last]
  }

  /** A stable sort of `s` by ascending `key`. */
  function Sort<T>(s: seq<T>, key: T -> int): (r: seq<T>)
    ensures SortedBy(r, key)
    ensures multiset(r) == multiset(s)
  {
    if |s| == 0 then []
    else
      var init, last := s[..|s| - 1], s[|s| - 1];
      assert s == init + [last];
      Insert(Sort(init, key), last, key)
  }

  /** Filtering a sequence extended by one element. */
  lemma FilterAppend<T(!new)>(s: seq<T>, x: T, p: T -> bool)
    ensures Filter(s + [x], p) == if p(x) then Filter(s, p) + [x] else Filter(s, p)
  {
    assert (s + [x])[..|s|] == s;
  }

  /** Sorting a sequence whose last element has the greatest key leaves
      that element last. */
  lemma SortAppendGreatest<T>(s: seq<T>, x: T, key: T -> int)
    requires forall y :: y in s ==> key(y) <= key(x)
    ensures Sort(s + [x], key) == Sort(s, key) + [x]
  {
    assert (s + [x])[..|s|] == s;
    var t := Sort(s, key);
    if |t| > 0 {
      assert t[|t| - 1] in multiset(s);
    }
  }

  /** A sequence that is already in order is left as it is. */
  lemma {:induction false} SortOfSorted<T>(s: seq<T>, key: T -> int)
    requires SortedBy(s, key)
    ensures Sort(s, key) == s
  {
    if |s| > 0 {
      var init := s[..|s| - 1];
      assert s == init + [s[|s| - 1]];
      SortOfSorted(init, key);
    }
  }

  /** Filtering keeps a sorted sequence sorted. */
  lemma {:induction false} FilterKeepsSorted<T(!new)>(s: seq<T>, p: T -> bool, key: T -> int)
    requires SortedBy(s, key)
    ensures SortedBy(Filter(s, p), key)
  {
    if |s| > 0 {
      var init, last := s[..|s| - 1], s[|s| - 1];
      FilterKeepsSorted(init, p, key);
      forall y | y in Filter(init, p) ensures key(y) <= key(last) {
        var k :| 0 <= k < |init| && init[k] == y;
      }
    }
  }

  /** Filters that agree on every element select the same subsequence. */
  lemma {:induction false} FilterCongruent<T(!new)>(s: seq<T>, p: T -> bool, q: T -> bool)
    requires forall y :: y in s ==> p(y) == q(y)
    ensures Filter(s, p) == Filter(s, q)
  {
    if |s| > 0 {
      assert s[|s| - 1] in s;
      FilterCongruent(s[..|s| - 1], p, q);
    }
  }

  /** A key-preserving update commutes with insertion. */
  lemma {:induction false} InsertMap<T>(s: seq<T>, x: T, key: T -> int, f: T -> T)
    requires SortedBy(s, key)
    requires forall y :: key(f(y)) == key(y)
    ensures SortedBy(Map(s, f), key)
    ensures Insert(Map(s, f), f(x), key) == Map(Insert(s, x, key), f)
  {
    if |s| > 0 && key(x) < key(s[|s| - 1]) {
      var init := s[..|s| - 1];
      assert Map(init, f) == Map(s, f)[..|s| - 1];
      InsertMap(init, x, key, f);
    }
  }

  /** A key-preserving update commutes with sorting. */
  lemma {:induction false} SortMap<T>(s: seq<T>, key: T -> int, f: T -> T)
    requires forall y :: key(f(y)) == key(y)
    ensures Sort(Map(s, f), key) == Map(Sort(s, key), f)
  {
    if |s| > 0 {
      var init := s[..|s| - 1];
      assert Map(s, f)[..|s| - 1] == Map(init, f);
      SortMap(init, key, f);
      InsertMap(Sort(init, key), s[|s| - 1], key, f);
    }
  }

  /** Filtering updated rows by `p` is updating the rows that `q` selects,
      when `q` says of each row what `p` says of its update. */
  lemma {:induction false} FilterMap<T(!new)>(s: seq<T>, f: T -> T, p: T -> bool, q: T -> bool)
    requires forall y :: y in s ==> p(f(y)) == q(y)
    ensures Filter(Map(s, f), p) == Map(Filter(s, q), f)
  {
    if |s| > 0 {
      var init := s[..|s| - 1];
      assert Map(s, f)[..|s| - 1] == Map(init, f);
      assert s[|s| - 1] in s;
      FilterMap(init, f, p, q);
    }
  }

  /** Two updates that agree after a projection `g` give the same projection. */
  lemma MapThenProject<T, U>(s: seq<T>, f: T -> T, g: T -> U)
    requires forall y :: y in s ==> g(f(y)) == g(y)
    ensures Map(Map(s, f), g) == Map(s, g)
  {
    forall k | 0 <= k < |s| ensures Map(Map(s, f), g)[k] == Map(s, g)[k] {
      assert s[k] in s;
    }
  }
}

=== FILE: text.dfy ===
/** The text matching behind the ORM's `icontains` lookup: a substring
    test after folding both sides to lower case. Only ASCII letters are
    folded. */
module Text {

  /** Folds an ASCII upper-case letter to lower case; every other character is kept. */
  function Lower(c: char): (r: char)
    ensures 'A' <= c <= 'Z' ==> 'a' <= r <= 'z' && r as int - c as int == 32
    ensures !('A' <= c <= 'Z') ==> r == c
  {
    if 'A' <= c <= 'Z' then (c as int + 32) as char else c
  }

  /** Folds every character of `s`. */
  function LowerString(s: string): (r: string)
    ensures |r| == |s|
    ensures forall k :: 0 <= k < |s| ==> r[k] == Lower(s[k])
  {
    seq(|s|, k requires 0 <= k < |s| => Lower(s[k]))
  }

  /** `needle` occurs in `hay` starting at position `k`. */
  predicate OccursAt(needle: string, hay: string, k: int) {
    0 <= k && k + |needle| <= |hay| && hay[k..k + |needle|] == needle
  }

  /** Whether `needle` occurs somewhere in `hay`, scanning left to right. */
  function IsSubstring(needle: string, hay: string): (r: bool)
    ensures r <==> exists k :: OccursAt(needle, hay, k)
    decreases |hay|
  {
    if |needle| <= |hay| && hay[..|needle|] == needle then
      assert OccursAt(needle, hay, 0);
      true
    else if |hay| == 0 then
      false
    else
      ShiftOccurrence(needle, hay);
      IsSubstring(needle, hay[1..])
  }

  /** An occurrence in the tail of `hay` is an occurrence in `hay` one
      position further on, and every occurrence past position 0 arises so. */
  lemma ShiftOccurrence(needle: string, hay: string)
    requires |hay| > 0
    ensures (exists k :: OccursAt(needle, hay[1..], k)) <==> (exists k :: 1 <= k && OccursAt(needle, hay, k))
  {
    if k :| OccursAt(needle, hay[1..], k) {
      assert hay[k + 1..k + 1 + |needle|] == hay[1..][k..k + |needle|];
      assert OccursAt(needle, hay, k + 1);
    }
    if k :| 1 <= k && OccursAt(needle, hay, k) {
      assert hay[1..][k - 1..k - 1 + |needle|] == hay[k..k + |needle|];
      assert OccursAt(needle, hay[1..], k - 1);
    }
  }

  /** The `icontains` lookup: case-insensitive containment. */
  function ContainsIgnoreCase(hay: string, needle: string): (r: bool)
    ensures r <==> exists k :: OccursAt(LowerString(needle), LowerString(hay), k)
  {
    IsSubstring(LowerString(needle), LowerString(hay))
  }

  /** Case-insensitive containment ignores the case of ASCII letters on both sides. */
  lemma ContainsIgnoresCase(hay: string, needle: string)
    ensures ContainsIgnoreCase(LowerString(hay), needle) == ContainsIgnoreCase(hay, needle)
    ensures ContainsIgnoreCase(hay, LowerString(needle)) == ContainsIgnoreCase(hay, needle)
  {
    assert LowerString(LowerString(hay)) == LowerString(hay);
    assert LowerString(LowerString(needle)) == LowerString(needle);
  }
}
